=== FILE: README.md ===
# Storefront product lifecycle, in Dafny

A model of the logic behind a small flower-shop storefront. The site is backed by a hosted
document store (collections `products`, `orders`, `reviews`, `inquiries`, `admins`), an object
bucket for product images, and a scheduled cloud function. The model covers:

- **The admin product console** (`admin/products.js`):
  - the save form: validation, client-side image scaling and re-encoding, choosing the upload
    body, the object name, then create or update;
  - archive ("Delete"), restore, and the manual "Delete Permanently" purge;
  - the countdown shown on archived rows, and the active and archived lists.
- **The scheduled purge** (`functions/index.js`): the cutoff query `deletedAt <= now - 7 days`,
  then a best-effort sweep over the candidates. Each candidate's image URLs are turned back into
  object paths (pathname, split on `/o/`, `decodeURIComponent`) and deleted. The record is
  deleted after that. Every failure is logged and skipped.
- **The public catalog** (`assets/js/products.js`): the creation-ordered listener, the
  on-sale filter, the featured strip of four, card placeholder images, the sample fallback and
  the visitor's order request.
- **The admin orders page** (`admin/orders.js`): the sign-in gate, the newest-first list with
  its display defaults, and "Mark Processed".
- **Reviews** (`assets/js/reviews.js`): the approved-newest-six query, star strings, avatars,
  the empty, error and cards views, and the submission record.
- **The contact form** (`assets/js/contact.js`): trimming, required fields, the email pattern
  `^[^\s@]+@[^\s@]+\.[^\s@]+$` and the inquiry write.

The JavaScript built-ins these depend on are modelled exactly where a property rests on them:

- `trim` and `\s`: the full WhiteSpace and LineTerminator set of ECMA-262;
- `replace(/\s+/g, '_')`;
- `String(n)`, `split`, `indexOf`, `repeat`;
- `Math.round` and `Math.min`;
- `encodeURIComponent` and `decodeURIComponent`, with the UTF-8 well-formedness check of
  section 19.2.6.5 of ECMA-262.

Modules follow the program's structure:

| module | contents |
|---|---|
| `Common` | shared wrappers |
| `JsText`, `Utf8`, `UriComponent` | the text built-ins |
| `Catalog` | the records, the store and the archive invariant |
| `Query` | `where`, `orderBy(desc)`, `limit` |
| `ObjectPaths` | download URLs and the `/o/` path extraction |
| `Cleanup` | the best-effort image deletion loop both purge paths share |
| `ImagePrep` | `resizeAndConvertImage` and the upload choice |
| `AdminProducts`, `ScheduledPurge`, `PublicCatalog`, `AdminOrders`, `Reviews`, `Contact` | the handlers |

Remote calls and their environment become parameters:

- the clock becomes `now`;
- the bucket name, the access token and document ids the store assigns become parameters;
- which remote call fails becomes a boolean or a set of failing paths or ids;
- the browser's bitmap decoder and canvas encoder become parameters;
- `new URL(...)` becomes the parsed pathname carried in each `Url`.

Behaviours of the code worth noting:

- An update through the save form always sets `isActive` to true. The handler assigns
  `data.isActive !== false` on a fresh object, which is always true. It does not preserve the
  stored flag.
- Neither the manual purge nor the scheduled sweep checks that the record is archived. The
  manual purge checks no age either. The sweep selects by `deletedAt` alone, so an edited
  product that still carries its archive stamp is swept although it is active (see
  `AdminProducts.EditAfterArchiveKeepsStamp`).
- The manual purge attempts one deletion per image URL whose storage reference can be formed,
  not one per URL. A URL the SDK rejects is skipped (`Cleanup.TargetsOfResolvable` gives the
  exact count when every URL resolves).
- The "Delete Permanently" button carries the classes `purge` and `delete`
  (admin/products.js:94). The click handler tests `delete` and `purge` in separate `if`s
  (admin/products.js:280-322), so one click first asks to archive the product, stamping it
  anew, and then asks to purge it. When the record delete then fails, the product stays
  archived with its seven days restarted (`AdminProducts.DeletePermanentlyClick`).
- `attachArchivedListener` (admin/products.js:61) is not called anywhere in that file, and
  the only click listener is on `#products-list` (admin/products.js:268), while the archived
  rows are drawn into `#archived-list`. Unless the admin page's markup, which is not part of
  this model, nests one list inside the other or another script attaches the listener, the
  archived list is never drawn and its Restore and Delete Permanently buttons never reach
  the handler. The model treats both as reachable.

## Model

| member | source | states |
|---|---|---|
| JsText.Trim | assets/js/contact.js:9-11 | `trim` leaves no white space at either end, and is empty exactly when the input was all white space |
| JsText.TrimIsInnerSlice | assets/js/contact.js:9-11 | the trimmed text is a slice of the input with only white space cut from before and after it |
| JsText.TrimFixesTrimmed | assets/js/contact.js:9-11 | text with no white space at its ends is not changed by `trim` |
| JsText.TrimIdempotent | assets/js/reviews.js:72-74 | trimming a trimmed value again changes nothing |
| JsText.CollapseSpaces | admin/products.js:182 | `replace(/\s+/g,'_')` leaves no white space and never lengthens the name |
| JsText.CollapseRun | admin/products.js:182 | a maximal run of white space becomes exactly one `_`, with the text on either side replaced on its own |
| JsText.CollapseKeepsSpaceFree | admin/products.js:182 | a file name without white space passes through the replacement unchanged |
| JsText.CollapseIdempotent | admin/products.js:182 | applying the replacement twice equals applying it once |
| JsText.Decimal | admin/products.js:182 | `Date.now()` in the object name is a non-empty digit string with no leading zero except for 0 |
| JsText.DecimalRoundTrip | admin/products.js:182 | reading the timestamp numeral back gives the timestamp |
| JsText.IndexOf | functions/index.js:25 | the result is the first position at which the separator occurs, and `None` only when it occurs nowhere |
| JsText.SecondPart | functions/index.js:25-26 | `parts[1]` exists exactly when `indexOf` finds the separator, that is, when it occurs; it is the text that starts right after the first occurrence and runs, free of the separator, up to the next occurrence or the end |
| JsText.Repeat | assets/js/reviews.js:43 | `c.repeat(n)` is `n` copies of `c` |
| JsText.AsciiUpper | assets/js/reviews.js:44 | lower-case ASCII letters are raised by 32 code points; every other character is unchanged |
| Utf8.DecodeGroup | functions/index.js:27 | a multi-octet escape group decodes exactly when its value is a scalar value that is not an overlong form |
| Utf8.EncodeScalar | functions/index.js:27 | a scalar value takes 1 to 4 octets, and 1 exactly for ASCII |
| Utf8.EncodeScalarDecodes | functions/index.js:27 | every non-ASCII character's UTF-8 octets form a well-shaped group that decodes back to that character |
| UriComponent.Continuations | functions/index.js:27 | the continuation escapes read are exactly the announced count, all `10xxxxxx`, and within the input |
| UriComponent.DecodeWithoutPercent | functions/index.js:27 | `decodeURIComponent` leaves text without `%` unchanged |
| UriComponent.DecodeEscapedGroup | functions/index.js:27 | the percent-escaped UTF-8 of a character decodes to that character, whatever follows |
| UriComponent.DecodeEncode | functions/index.js:27 | `decodeURIComponent(encodeURIComponent(s)) == s` for every string |
| UriComponent.EncodeAlphabet | functions/index.js:25-27 | an encoded path holds only unreserved characters and `%`, and in particular no `/`, so the `/o/` split cannot cut it |
| ObjectPaths.ObjectPathOf | functions/index.js:24-27 | no path when the URL does not parse or has no `/o/`; otherwise the path is the decoding of the segment after the first `/o/` |
| ObjectPaths.SegmentOfDownloadPathname | functions/index.js:25-26 | in a download pathname the segment after the first `/o/` is the whole encoded object path |
| ObjectPaths.ObjectPathOfDownloadUrl | functions/index.js:23-27 | the purge recovers from a download URL exactly the object path that was uploaded, for any path and token |
| ObjectPaths.BucketNamedOMisleadsSplit | functions/index.js:25-27 | with a bucket named `o` the first `/o/` is found too early and the recovered path is wrong |
| Cleanup.Targets | functions/index.js:19-31 | at most one deletion attempt per image URL |
| Cleanup.TargetsExactly | functions/index.js:20-31 | a deletion is attempted for the path of every URL that resolves, and only for such paths |
| Cleanup.TargetsOfResolvable | admin/products.js:308-317 | when every URL resolves, exactly one deletion per URL is attempted, in list order |
| Cleanup.DeleteImages | admin/products.js:308-317 | the loop attempts the targets in order and removes exactly the attempted objects whose deletion did not fail; every other object is kept |
| Query.Where | assets/js/products.js:53-56 | the filter keeps exactly the accepted documents |
| Query.WhereCounts | assets/js/products.js:53-56 | the filter keeps each accepted document as often as the snapshot holds it and no other: nothing is duplicated or dropped |
| Query.WhereKeepsOrder | assets/js/products.js:48-56 | filtering a newest-first snapshot on the client keeps it newest-first |
| Query.Sort | admin/products.js:51 | the ordering is newest-first and a permutation of its input |
| Query.OrderByDesc | admin/products.js:51 | `orderBy(field,'desc')` lists exactly the documents that carry the field, newest first |
| Query.OrderByDescCounts | admin/products.js:51 | `orderBy(field,'desc')` lists each document that carries the field as often as the snapshot holds it |
| Query.Limit | assets/js/reviews.js:18 | `limit(n)` is the first `min(n, size)` documents |
| Query.LimitWithin | assets/js/reviews.js:18 | `limit(n)` holds no document more often than the snapshot |
| AdminProducts.Validate | admin/products.js:150-157 | a form passes exactly when the title is non-empty, the price is a number at least 0 and any image is at most 2 MiB; a bad title or price is reported first |
| AdminProducts.ObjectNameParts | admin/products.js:182 | the object name is the folder, the timestamp numeral, `_`, and a whitespace-free file name that is the original when it had no white space |
| AdminProducts.UploadedSize | admin/products.js:176 | the uploaded body is never larger than the picked file |
| AdminProducts.PriceCents | admin/products.js:162 | `price_cents` is within one half of `price * 100` and non-negative for a valid price |
| AdminProducts.Save | admin/products.js:134-215 | a save succeeds exactly when the form validates, the upload and URL calls (with a file) succeed, an edited id exists and the write succeeds, and each failure outcome is named by the first step that fails; validation gates every remote call; the bucket is untouched when the form is rejected, the upload fails or no file is chosen, and otherwise gains exactly the uploaded object under its timestamped name; records change only on success and only at the saved id, which holds the form's fields, the cents and the new image URL |
| AdminProducts.SaveCreates | admin/products.js:198-202 | a create adds a record under the assigned id with the creation time and no archive stamp |
| AdminProducts.SaveUpdates | admin/products.js:194-197 | an update keeps the creation time, archive stamp and images (without a new file), and fails with `NotFound` on a missing record |
| AdminProducts.SaveKeepsConsistency | admin/products.js:194-202 | creating, or editing a product that is not archived, keeps the archive invariant of every record |
| AdminProducts.EditAfterArchiveKeepsStamp | admin/products.js:195-197 | editing an archived product makes it active while its archive stamp stays, breaking the invariant |
| AdminProducts.SavedImageLocatesBlob | admin/products.js:182-191 | the saved image URL leads the purge's path extraction back to the uploaded object, which is in the bucket |
| AdminProducts.Archive | admin/products.js:283-286 | archive fails only on a missing record; it stamps `deletedAt = now`, clears `isActive`, and touches no other field or record |
| AdminProducts.Restore | admin/products.js:294-297 | restore fails only on a missing record; it removes the stamp, sets `isActive`, and touches nothing else |
| AdminProducts.RestoreUndoesArchive | admin/products.js:283-297 | archive then restore leaves the product active and unstamped with all other fields unchanged, and is the identity on an active product |
| AdminProducts.ArchiveKeepsConsistency | admin/products.js:283-286 | archiving keeps the archive invariant |
| AdminProducts.RestoreKeepsConsistency | admin/products.js:294-297 | restoring keeps the archive invariant |
| AdminProducts.ArchiveAgainRestartsClock | admin/products.js:283-286 | re-archiving an archived product restarts its retention period |
| AdminProducts.Purge | admin/products.js:302-322 | the purge branch alone: every image is tried in order, then the record is deleted whatever became of the images; only the objects whose deletion succeeded are gone |
| AdminProducts.DeletePermanentlyClick | admin/products.js:268-322 | one click on the archived row's button runs the archive branch and then the purge branch; a failed archive update stops the handler; a record whose delete fails stays archived at `now`, its countdown back at 7 |
| AdminProducts.DaysLeft | admin/products.js:84 | `'N/A'` exactly without a stamp, otherwise a count that is never negative; a positive count `n` means the elapsed time lies in `[(7 - n) days, (8 - n) days)`, so the row shows the whole days left |
| AdminProducts.DaysLeftRange | admin/products.js:84 | for a stamp in the past the countdown lies in 0..7 |
| AdminProducts.DaysLeftZeroIff | admin/products.js:84 | the countdown reads 0 exactly when seven full days have elapsed |
| AdminProducts.DaysLeftMonotone | admin/products.js:84 | the countdown never increases as time passes |
| AdminProducts.ActiveList | admin/products.js:49-51 | the main list is exactly the active products with a creation time, newest first, each as often as in the snapshot |
| AdminProducts.ArchivedList | admin/products.js:63-65 | the archived list is exactly the products with `isActive == false` and a stamp, most recently archived first, each as often as in the snapshot |
| AdminProducts.ArchivedListComplete | admin/products.js:63-84 | under the archive invariant the archived list shows every archived product, each with a countdown |
| ScheduledPurge.Sweep | functions/index.js:14-48 | the sweep removes exactly the candidates whose record deletion succeeds, and exactly the targeted objects whose deletion succeeds; it issues each candidate's deletions then its record deletion, in order |
| ScheduledPurge.PurgeArchivedProducts | functions/index.js:8-51 | run at `now` over the cutoff query's result, a record survives exactly when it is not due or its deletion failed, and survivors are unchanged; the sweep uses the `/o/` path extraction |
| ScheduledPurge.SweepRemovesExactlyDue | functions/index.js:9-11 | over the cutoff query's result, a record survives exactly when it is not due or its deletion failed |
| ScheduledPurge.CandidateTargetsSwept | functions/index.js:14-36 | every path a candidate's images resolve to is targeted by the sweep |
| ScheduledPurge.UploadedImageSwept | functions/index.js:14-31 | an image the admin form uploaded for a due product is gone after the sweep unless its own deletion failed |
| ScheduledPurge.DueIffCountdownZero | admin/products.js:84 | the archived row reads 0 days left exactly when the scheduled query selects the product |
| ScheduledPurge.CutoffExample | functions/index.js:9-11 | of products archived 3, 6, 7 and 10 days ago only the last two are due; the boundary is inclusive |
| ImagePrep.ScaleRatio | admin/products.js:241 | the ratio lies in [0, 1], brings both sides within `maxDim`, and is 1 or makes one side exactly `maxDim` |
| ImagePrep.Round | admin/products.js:242-243 | `Math.round` lands within one half, rounding halves up |
| ImagePrep.ScaleBy | admin/products.js:242-243 | the rounded canvas sides fit in `maxDim` and never exceed the bitmap's |
| ImagePrep.TargetDims | admin/products.js:241-243 | the canvas fits in `maxDim` and never upscales; it keeps the bitmap's size or its longer side reaches `maxDim` |
| ImagePrep.ScaledKeepsAspect | admin/products.js:242-243 | rounding both scaled sides keeps the aspect ratio to within half the sum of the sides |
| ImagePrep.TargetDimsKeepsAspect | admin/products.js:241-243 | the canvas keeps the bitmap's aspect ratio up to rounding |
| ImagePrep.ResizeAndConvert | admin/products.js:237-265 | a failed bitmap decoding, a zero-sided bitmap or a throwing encoder yields the original file; an encoder returning null yields a null blob; an encoder returning a blob yields exactly that blob, and only then |
| ImagePrep.ChooseUpload | admin/products.js:176 | the optimized blob is uploaded exactly when it exists, is non-empty and is strictly smaller than the file |
| ImagePrep.LandscapePhotoExample | admin/products.js:174 | a 4000x3000 photo at the form's 2400 limit becomes 2400x1800 |
| ImagePrep.FailingEncoderUploadsOriginal | admin/products.js:261-264 | with an encoder that always throws, the original file is uploaded |
| PublicCatalog.CatalogList | assets/js/products.js:48-56 | the page lists exactly the products with a creation time that are not deactivated and are in stock, newest first, each as often as in the snapshot |
| PublicCatalog.Featured | assets/js/products.js:63 | the featured strip is the first four listed products, or all of them when fewer |
| PublicCatalog.PlaceholderChoice | assets/js/products.js:88 | a card without its own image shows one of the three bundled images, cycling with period three |
| PublicCatalog.Render | assets/js/products.js:60-78 | the grid falls back to samples exactly when nothing is on sale; otherwise it holds the cards of the catalog list in order, and the featured strip holds the cards of its first four, a prefix of the grid |
| PublicCatalog.RequestOrder | assets/js/products.js:125-143 | a cancelled or empty prompt, or a failed write, files nothing; otherwise one new `new` order with the product, email and time, and nothing else changes |
| AdminOrders.StatusLabel | admin/orders.js:22 | a missing or empty status shows as `new`, any other is shown as stored |
| AdminOrders.EmailLabel | admin/orders.js:21 | a missing or empty email shows as an em dash, any other is shown as stored |
| AdminOrders.OrderList | admin/orders.js:14 | the orders list is exactly the orders with a creation time, newest first, each as often as in the snapshot |
| AdminOrders.MarkProcessed | admin/orders.js:32 | the update fails only on a missing order; it sets status and time and keeps every other field and order |
| AdminOrders.MarkProcessedTwice | admin/orders.js:32 | marking an order processed twice is marking it once at the later time |
| AdminOrders.MarkedShowsProcessed | admin/orders.js:32 | after the update the row shows `processed` |
| AdminOrders.RequestedOrderListed | admin/orders.js:14-22 | an order a visitor requests from a card is listed on the admin page with the visitor's email and status `new` |
| AdminOrders.Gate | admin/orders.js:5-9 | no user is sent to login; a non-admin is signed out; the console loads exactly for an admin |
| Reviews.Stars | assets/js/reviews.js:43 | five slots, full exactly in the first `rating` positions, empty after |
| Reviews.StarsOf | assets/js/reviews.js:43 | the star string fails exactly for ratings outside 0..5, is the five-slot string of the rating inside that range, and a `NaN` rating shows no stars |
| Reviews.Avatar | assets/js/reviews.js:44 | the avatar is one character exactly when the name is non-empty: the first character, raised to upper case when it is a lower-case ASCII letter |
| Reviews.AvatarIdempotent | assets/js/reviews.js:44 | the avatar of an avatar is the avatar itself |
| Reviews.Displayed | assets/js/reviews.js:15-19 | at most six approved reviews, newest first, none repeated beyond the snapshot |
| Reviews.DisplayedAreNewest | assets/js/reviews.js:15-19 | an approved review left out implies six are shown, each at least as new as it |
| Reviews.RenderCards | assets/js/reviews.js:26-31 | cards render exactly when every star string can be built, one card per review in order |
| Reviews.LoadReviews | assets/js/reviews.js:13-36 | the empty state exactly when the query succeeds and no review qualifies; the error state exactly when the query fails or some shown review has an out-of-range rating; otherwise one card per shown review, in order |
| Reviews.ValidRatingsLoad | assets/js/reviews.js:13-36 | when every stored rating is in range, a successful query never shows the error state, and shows cards whenever a review qualifies |
| Reviews.Submit | assets/js/reviews.js:71-80 | a successful submission adds one approved review with trimmed name and text and the parsed rating, and nothing else changes |
| Reviews.SubmitNormalisesOnce | assets/js/reviews.js:72-74 | resubmitting a stored review's own name and text stores them unchanged |
| Contact.ValidEmailIffPattern | assets/js/contact.js:20-21 | the scan-based address check accepts exactly the language of the email pattern |
| Contact.AcceptedEmailShape | assets/js/contact.js:20-21 | an accepted address has no white space, exactly one `@` after a non-empty local part, an inner `.` after it, and at least five characters |
| Contact.Check | assets/js/contact.js:14-24 | a missing email or message is reported first, then a pattern mismatch; it passes exactly for a present message and a matching email |
| Contact.Submit | assets/js/contact.js:6-40 | the inquiry is written exactly when the trimmed fields pass the checks and the write succeeds, holding the trimmed fields and the time |
| Contact.StoredInquiryValid | assets/js/contact.js:9-32 | a stored inquiry's email matches the pattern and its message is non-empty |

## Left out

- Page rendering, DOM wiring, styling and `escapeHtml` are left out. So are the image preview,
  the edit button that fills the form, the sign-out button, status texts and alerts, and the
  emulator block.
- `toFixed` price formatting is left out.
- The sample products `loadFallback` fetches are left out. The model records only that the grid
  falls back.
- The document store, the storage SDK and the network are left out. Their calls become results
  chosen by parameters: `now`, assigned ids, tokens, and failing calls or paths.
- Real-time listeners are modelled as one snapshot rendered. Listener errors, which also fall
  back, are not modelled separately.
- Concurrency is left out. This includes the race between an admin edit and a running sweep:
  each operation is a step on one store.
- WHATWG URL parsing is left out. Each `Url` carries the pathname the parser would produce, or
  `None` when it throws.
- The manual purge's `storage.refFromURL` is a `resolve` parameter. Which URLs the SDK accepts
  is not modelled.
- `Date` arithmetic is modelled on millisecond integers. Time zones and locale date formatting
  on review cards are left out.
- The products page's gate (admin/products.js:28-42) dereferences the missing user after
  redirecting, which throws. Its observable outcome is the same redirect, so it shares
  `AdminOrders.Gate`.
- `AdminProducts.PriceCents`: computes `Math.round(price * 100)` in exact rational arithmetic,
  not in binary floating point. A product of a price and 100 that rounds differently in IEEE
  doubles is not reproduced.
- `AdminProducts.Validate`: `parseFloat` may yield `Infinity`, which the form accepts. The model
  has no infinite price.
- `ImagePrep.ScaleRatio`: computed over exact reals, not doubles. Canvas drawing and the
  encoder's quality setting are left out; the encoder is a parameter.
- `ImagePrep.ResizeAndConvert`: a bitmap with a zero side yields the original file, as a
  decoding failure does; what a browser's canvas does with a zero side is not modelled.
- `Query.OrderByDesc`: documents with equal timestamps come out in an order the model fixes
  arbitrarily. The store orders ties by document id; the contract says nothing about ties.
- `ScheduledPurge.Sweep`: takes the query result in whatever order it is given. The store's
  ascending `deletedAt` order is not modelled.
- `Reviews.Avatar`: `toUpperCase` is modelled for ASCII letters only. `charAt(0)` takes a UTF-16
  code unit, which differs from the first character for characters outside the Basic
  Multilingual Plane.
- `UriComponent.DecodeEncode`: strings are sequences of Unicode scalar values. Lone
  surrogates, on which `encodeURIComponent` throws, cannot be represented.
- `ObjectPaths.ObjectPathOfDownloadUrl`: requires a bucket name without `/` that is not `o`.
  Storage bucket names have at least three characters, and
  `ObjectPaths.BucketNamedOMisleadsSplit` shows why `o` must be excluded.

=== FILE: admin_orders.dfy ===
/**
 The admin console's orders page and the sign-in gate in front of both admin pages: the order
 list newest first with its display defaults, and the "Mark Processed" update.
 */
module AdminOrders {
  import opened Common
  import opened Catalog
  import opened Query
  import PublicCatalog

  const ProcessedStatus: string := "processed"

  /** `o.status || 'new'`: a missing or empty status reads as `new`. */
  function StatusLabel(o: Order): (shown: string)
    ensures shown != ""
    ensures o.status.Some? && o.status.value != "" ==> shown == o.status.value
    ensures o.status.None? || o.status == Some("") ==> shown == "new"
  {
    if o.status.Some? && o.status.value != "" then o.status.value else "new"
  }

  /** `o.email || '—'`: a missing or empty email reads as an em dash. */
  function EmailLabel(o: Order): (shown: string)
    ensures shown != ""
    ensures o.email.Some? && o.email.value != "" ==> shown == o.email.value
    ensures o.email.None? || o.email == Some("") ==> shown == "—"
  {
    if o.email.Some? && o.email.value != "" then o.email.value else "—"
  }

  function OrderCreatedAt(o: Order): Option<int> {
    o.createdAt
  }

  /** `orderBy('createdAt', 'desc')` over the `orders` collection. */
  function OrderList(docs: seq<Doc<Order>>): (r: seq<Doc<Order>>)
    ensures SortedDesc(r, OrderCreatedAt)
    ensures forall d :: d in r <==> d in docs && d.data.createdAt.Some?
    ensures forall d :: multiset(r)[d] == if d.data.createdAt.Some? then multiset(docs)[d] else 0
  {
    OrderByDescCounts(docs, OrderCreatedAt);
    OrderByDesc(docs, OrderCreatedAt)
  }

  /** "Mark Processed": the update `{status: 'processed', processedAt: now}`, whatever the
      current status; it fails on an order that no longer exists. */
  function MarkProcessed(orders: map<Id, Order>, id: Id, now: Time): (r: Result<map<Id, Order>, StoreError>)
    ensures r.Err? <==> id !in orders
    ensures r.Ok? ==>
      && r.value.Keys == orders.Keys
      && (forall k :: k in orders && k != id ==> r.value[k] == orders[k])
    ensures r.Ok? ==>
      var o := orders[id];
      var q := r.value[id];
      && q.status == Some(ProcessedStatus) && q.processedAt == Some(now)
      && q.productId == o.productId && q.email == o.email && q.createdAt == o.createdAt
  {
    if id !in orders then Err(NotFound)
    else Ok(orders[id := orders[id].(status := Some(ProcessedStatus), processedAt := Some(now))])
  }

  /** Marking twice is marking once at the later time. */
  lemma MarkProcessedTwice(orders: map<Id, Order>, id: Id, t1: Time, t2: Time)
    requires id in orders
    ensures MarkProcessed(orders, id, t1).Ok?
    ensures MarkProcessed(MarkProcessed(orders, id, t1).value, id, t2) == MarkProcessed(orders, id, t2)
  {
    var once := MarkProcessed(orders, id, t1).value;
    assert MarkProcessed(once, id, t2).value == MarkProcessed(orders, id, t2).value;
  }

  /** After the update the row shows `processed`. */
  lemma MarkedShowsProcessed(orders: map<Id, Order>, id: Id, now: Time)
    requires id in orders
    ensures StatusLabel(MarkProcessed(orders, id, now).value[id]) == ProcessedStatus
  {
  }

  /** A query result over `orders`: every listed document is the stored order under its id,
      and every stored order is listed. */
  ghost predicate IsSnapshot(orders: map<Id, Order>, docs: seq<Doc<Order>>) {
    && (forall d :: d in docs ==> d.id in orders && orders[d.id] == d.data)
    && (forall id :: id in orders ==> Doc(id, orders[id]) in docs)
  }

  /** An order a visitor requests from a product card appears on the admin orders page, showing
      the visitor's email and the status `new`. */
  lemma RequestedOrderListed(orders: map<Id, Order>, productId: Id, email: string, now: Time,
                             newId: Id, docs: seq<Doc<Order>>)
    requires newId !in orders && email != ""
    requires IsSnapshot(PublicCatalog.RequestOrder(orders, productId, Some(email), now, newId, false), docs)
    ensures exists d :: (&& d in OrderList(docs) && d.id == newId && d.data.productId == productId
                         && EmailLabel(d.data) == email && StatusLabel(d.data) == "new")
  {
    var placed := PublicCatalog.RequestOrder(orders, productId, Some(email), now, newId, false);
    var d := Doc(newId, placed[newId]);
    assert d in docs;
    assert d in OrderList(docs);
  }

  datatype GateOutcome = RedirectToLogin | SignOut | LoadConsole

  /** The auth-state check both admin pages run: no user is sent to the login page, a user whose
      uid has no `admins` document is signed out, and only an admin gets the console loaded. */
  function Gate(user: Option<Id>, admins: set<Id>): (g: GateOutcome)
    ensures g == LoadConsole <==> user.Some? && user.value in admins
    ensures g == RedirectToLogin <==> user.None?
    ensures g == SignOut <==> user.Some? && user.value !in admins
  {
    match user
    case None => RedirectToLogin
    case Some(uid) => if uid in admins then LoadConsole else SignOut
  }
}

=== FILE: admin_products.dfy ===
/**
 The admin console's product handlers: the save form (validation, image preparation and upload,
 create or update), archive, restore, the manual "Delete Permanently" purge, the countdown shown
 on archived rows and the two admin lists.
 */
module AdminProducts {
  import opened Common
  import opened JsText
  import opened Catalog
  import opened ImagePrep
  import ObjectPaths
  import opened Query
  import opened Cleanup

  /** The largest image file the form accepts: 2 MiB. */
  const MaxImageBytes: nat := 2 * 1024 * 1024

  const DayMs: nat := 1000 * 60 * 60 * 24

  /** Days an archived product is kept before the scheduled purge removes it. */
  const RetentionDays: nat := 7

  const ImageFolder: string := "product_images/"

  /** The form as submitted. `id` is the hidden product-id field (empty when creating);
      `price` is `parseFloat` of the price field (`None` for `NaN`); `inventory` is `parseInt`
      of the inventory field, `'0'` when blank (`None` for `NaN`); `image` is the picked file. */
  datatype ProductForm = ProductForm(
    id: string,
    title: string,
    price: Option<real>,
    description: string,
    inventory: Option<int>,
    image: Option<ImageFile>)

  datatype Rejection = InvalidTitleOrPrice | ImageTooLarge

  predicate ValidTitleAndPrice(form: ProductForm) {
    form.title != "" && form.price.Some? && form.price.value >= 0.0
  }

  /** The client-side checks, in the order the handler runs them. */
  function Validate(form: ProductForm): (r: Option<Rejection>)
    ensures r.None? <==> ValidTitleAndPrice(form) && (form.image.None? || form.image.value.size <= MaxImageBytes)
    ensures r == Some(InvalidTitleOrPrice) <==> !ValidTitleAndPrice(form)
    ensures r == Some(ImageTooLarge) ==> form.image.Some? && form.image.value.size > MaxImageBytes
  {
    if !ValidTitleAndPrice(form) then Some(InvalidTitleOrPrice)
    else if form.image.Some? && form.image.value.size > MaxImageBytes then Some(ImageTooLarge)
    else None
  }

  /** The storage object name for an upload at time `now`: the folder, the decimal timestamp, an
      underscore, and the file name with each whitespace run replaced by one underscore. */
  function ObjectName(now: Time, fileName: string): Path {
    ImageFolder + Decimal(now) + "_" + CollapseSpaces(fileName)
  }

  /** The object name splits back into its parts: the folder, a numeral whose value is the
      timestamp, an underscore, and a file-name part free of whitespace that is the file name
      itself when that had none. */
  lemma ObjectNameParts(now: Time, fileName: string)
    ensures var r := ObjectName(now, fileName);
      var k := |ImageFolder| + |Decimal(now)|;
      && |r| > k
      && r[..|ImageFolder|] == ImageFolder
      && r[|ImageFolder|..k] == Decimal(now)
      && DigitsValue(r[|ImageFolder|..k]) == now
      && r[k] == '_'
      && NoSpace(r[k + 1..])
      && (NoSpace(fileName) ==> r[k + 1..] == fileName)
  {
    var r := ObjectName(now, fileName);
    var k := |ImageFolder| + |Decimal(now)|;
    assert r[..|ImageFolder|] == ImageFolder;
    assert r[|ImageFolder|..k] == Decimal(now);
    assert r[k + 1..] == CollapseSpaces(fileName);
    DecimalRoundTrip(now);
    if NoSpace(fileName) {
      CollapseKeepsSpaceFree(fileName);
    }
  }

  /** What the environment of one save supplies: the clock, the bucket, the browser's bitmap
      decoding and encoder, the access token in the download URL, which remote call fails, and
      the identifier the record store assigns to a new document. */
  datatype SaveEnv = SaveEnv(
    now: Time,
    bucket: string,
    bitmap: Option<Dims>,
    encode: Dims -> EncoderResult,
    token: string,
    uploadFails: bool,
    urlFails: bool,
    writeFails: bool,
    newId: Id)

  datatype SaveOutcome =
    | Rejected(why: Rejection)
    | UploadFailed
    | UrlFailed
    | UpdateFailed(error: StoreError)
    | WriteFailed
    | Saved(id: Id)

  datatype SaveResult = SaveResult(store: Store, outcome: SaveOutcome)

  /** Size of the body the form uploads for `file`. */
  function UploadedSize(file: ImageFile, env: SaveEnv): (n: nat)
    ensures n <= file.size
  {
    UploadSize(file, ChooseUpload(file, ResizeAndConvert(FormMaxDim, env.bitmap, env.encode)))
  }

  /** `Math.round(price * 100)` in exact arithmetic. */
  function PriceCents(price: real): (c: int)
    ensures price >= 0.0 ==> c >= 0
    ensures price * 100.0 - 0.5 < c as real <= price * 100.0 + 0.5
  {
    Round(price * 100.0)
  }

  /** The record fields the form writes on top of `p`; `images` only when a file was uploaded. */
  function Edited(p: Product, form: ProductForm, cents: int, images: Option<seq<Url>>, now: Time): Product
  {
    p.(title := form.title, description := form.description, priceCents := cents,
       inventory := form.inventory, updatedAt := Some(now), isActive := Some(true),
       images := if images.Some? then images.value else p.images)
  }

  /** The record step of a save: `update` of the existing document, or `add` of a new one. */
  function WriteRecord(s: Store, form: ProductForm, cents: int, images: Option<seq<Url>>, env: SaveEnv): SaveResult
  {
    if form.id != "" then
      if form.id !in s.products then SaveResult(s, UpdateFailed(NotFound))
      else if env.writeFails then SaveResult(s, WriteFailed)
      else
        var p := Edited(s.products[form.id], form, cents, images, env.now);
        SaveResult(s.(products := s.products[form.id := p]), Saved(form.id))
    else if env.writeFails then SaveResult(s, WriteFailed)
    else
      var blank := Product("", "", 0, None, [], None, Some(env.now), None, None);
      var p := Edited(blank, form, cents, images, env.now);
      SaveResult(s.(products := s.products[env.newId := p]), Saved(env.newId))
  }

  /** The form passes validation and, when a file was picked, its upload and download-URL
      calls succeed: the handler goes on to write the record. */
  predicate ReachesWrite(form: ProductForm, env: SaveEnv) {
    Validate(form).None? && (form.image.Some? ==> !env.uploadFails && !env.urlFails)
  }

  /** The form's submit handler. */
  function Save(s: Store, form: ProductForm, env: SaveEnv): (r: SaveResult)
    requires form.id == "" ==> env.newId !in s.products
    // which step decides the outcome
    ensures r.outcome.Rejected? <==> Validate(form).Some?
    ensures r.outcome.UploadFailed? <==> Validate(form).None? && form.image.Some? && env.uploadFails
    ensures r.outcome.UrlFailed? <==>
      Validate(form).None? && form.image.Some? && !env.uploadFails && env.urlFails
    ensures r.outcome.UpdateFailed? <==> ReachesWrite(form, env) && form.id != "" && form.id !in s.products
    ensures r.outcome.UpdateFailed? ==> r.outcome.error == NotFound
    ensures r.outcome.WriteFailed? <==>
      ReachesWrite(form, env) && (form.id != "" ==> form.id in s.products) && env.writeFails
    ensures r.outcome.Saved? <==>
      ReachesWrite(form, env) && (form.id != "" ==> form.id in s.products) && !env.writeFails
    ensures r.outcome.Rejected? ==> r.store == s
    // the bucket changes only by the one upload of the picked file, never larger than the file
    ensures r.outcome.Rejected? || r.outcome.UploadFailed? || form.image.None? ==> r.store.blobs == s.blobs
    ensures form.image.Some? && !r.outcome.Rejected? && !r.outcome.UploadFailed? ==>
      r.store.blobs == s.blobs[ObjectName(env.now, form.image.value.name) := UploadedSize(form.image.value, env)]
    // the record store changes only on success, and only at the saved id
    ensures !r.outcome.Saved? ==> r.store.products == s.products
    ensures r.outcome.Saved? ==>
      && r.outcome.id in r.store.products
      && r.store.products.Keys == s.products.Keys + {r.outcome.id}
      && (forall k :: k in s.products && k != r.outcome.id ==> r.store.products[k] == s.products[k])
    // what a saved record holds
    ensures r.outcome.Saved? ==>
      var p := r.store.products[r.outcome.id];
      && p.title == form.title && p.description == form.description && p.inventory == form.inventory
      && p.priceCents == PriceCents(form.price.value) && p.priceCents >= 0
      && p.isActive == Some(true) && p.updatedAt == Some(env.now)
      && (form.image.Some? ==>
            p.images == [ObjectPaths.DownloadUrl(env.bucket, ObjectName(env.now, form.image.value.name), env.token)])
  {
    match Validate(form)
    case Some(why) => SaveResult(s, Rejected(why))
    case None =>
      var cents := PriceCents(form.price.value);
      match form.image
      case None => WriteRecord(s, form, cents, None, env)
      case Some(file) =>
        if env.uploadFails then SaveResult(s, UploadFailed)
        else
          var path := ObjectName(env.now, file.name);
          var uploaded := s.(blobs := s.blobs[path := UploadedSize(file, env)]);
          if env.urlFails then SaveResult(uploaded, UrlFailed)
          else WriteRecord(uploaded, form, cents, Some([ObjectPaths.DownloadUrl(env.bucket, path, env.token)]), env)
  }

  /** Creating: a new document under the store-assigned id, with the creation time and no
      archive stamp. */
  lemma SaveCreates(s: Store, form: ProductForm, env: SaveEnv)
    requires env.newId !in s.products
    requires form.id == "" && Save(s, form, env).outcome.Saved?
    ensures var r := Save(s, form, env);
      var p := r.store.products[r.outcome.id];
      && r.outcome.id == env.newId
      && p.createdAt == Some(env.now) && p.deletedAt == None
      && (form.image.None? ==> p.images == [])
  {
  }

  /** Updating: the record keeps its creation time and archive stamp, and its images unless a
      file was given; an id that is not stored fails with `NotFound` once validation and the
      upload have passed. */
  lemma SaveUpdates(s: Store, form: ProductForm, env: SaveEnv)
    requires form.id != ""
    ensures var r := Save(s, form, env);
      r.outcome.Saved? ==>
        && form.id in s.products
        && r.outcome.id == form.id
        && r.store.products[form.id].createdAt == s.products[form.id].createdAt
        && r.store.products[form.id].deletedAt == s.products[form.id].deletedAt
        && (form.image.None? ==> r.store.products[form.id].images == s.products[form.id].images)
    ensures form.id !in s.products && Validate(form).None? && !env.uploadFails && !env.urlFails ==>
      Save(s, form, env).outcome == UpdateFailed(NotFound)
  {
  }

  /** A save that creates a product, or edits one that is not archived, keeps the archive
      invariant of the whole store. */
  lemma SaveKeepsConsistency(s: Store, form: ProductForm, env: SaveEnv)
    requires form.id == "" ==> env.newId !in s.products
    requires StoreConsistent(s)
    requires form.id in s.products ==> !Archived(s.products[form.id])
    ensures StoreConsistent(Save(s, form, env).store)
  {
    var r := Save(s, form, env);
    if r.outcome.Saved? {
      forall k | k in r.store.products
        ensures ArchiveConsistent(r.store.products[k])
      {
        if k != r.outcome.id {
          assert k in s.products;
        }
      }
    }
  }

  /** Editing a product whose row was loaded before it was archived re-activates it but keeps its
      archive stamp: the record breaks the archive invariant and stays due for the purge. */
  lemma EditAfterArchiveKeepsStamp(s: Store, form: ProductForm, env: SaveEnv)
    requires form.id != "" && form.id in s.products && Archived(s.products[form.id])
    requires s.products[form.id].deletedAt.Some?
    requires Save(s, form, env).outcome.Saved?
    ensures var p := Save(s, form, env).store.products[form.id];
      p.isActive == Some(true) && p.deletedAt == s.products[form.id].deletedAt && !ArchiveConsistent(p)
  {
  }

  /** The image of a product saved with a file is recovered from its download URL by the purge's
      path extraction, and names the blob the save uploaded. */
  lemma SavedImageLocatesBlob(s: Store, form: ProductForm, env: SaveEnv)
    requires form.id == "" ==> env.newId !in s.products
    requires form.image.Some? && ObjectPaths.SplittableBucket(env.bucket)
    requires Save(s, form, env).outcome.Saved?
    ensures var r := Save(s, form, env);
      var p := r.store.products[r.outcome.id];
      var path := ObjectName(env.now, form.image.value.name);
      && |p.images| == 1
      && ObjectPaths.ObjectPathOf(p.images[0]) == Some(path)
      && path in r.store.blobs
  {
    var path := ObjectName(env.now, form.image.value.name);
    ObjectPaths.ObjectPathOfDownloadUrl(env.bucket, path, env.token);
  }

  /** "Delete" on an active row: the update `{deletedAt: now, isActive: false}`. */
  function Archive(s: Store, id: Id, now: Time): (r: Result<Store, StoreError>)
    ensures r.Err? <==> id !in s.products
    ensures r.Ok? ==>
      && r.value.blobs == s.blobs
      && r.value.products.Keys == s.products.Keys
      && (forall k :: k in s.products && k != id ==> r.value.products[k] == s.products[k])
    ensures r.Ok? ==>
      var p := s.products[id];
      var q := r.value.products[id];
      && Archived(q) && q.deletedAt == Some(now)
      && q.(isActive := p.isActive, deletedAt := p.deletedAt) == p
  {
    if id !in s.products then Err(NotFound)
    else
      var p := s.products[id];
      Ok(s.(products := s.products[id := p.(isActive := Some(false), deletedAt := Some(now))]))
  }

  /** "Restore" on an archived row: the update `{deletedAt: delete(), isActive: true}`. */
  function Restore(s: Store, id: Id): (r: Result<Store, StoreError>)
    ensures r.Err? <==> id !in s.products
    ensures r.Ok? ==>
      && r.value.blobs == s.blobs
      && r.value.products.Keys == s.products.Keys
      && (forall k :: k in s.products && k != id ==> r.value.products[k] == s.products[k])
    ensures r.Ok? ==>
      var p := s.products[id];
      var q := r.value.products[id];
      && q.isActive == Some(true) && q.deletedAt == None
      && q.(isActive := p.isActive, deletedAt := p.deletedAt) == p
  {
    if id !in s.products then Err(NotFound)
    else
      var p := s.products[id];
      Ok(s.(products := s.products[id := p.(isActive := Some(true), deletedAt := None)]))
  }

  /** Archive followed by restore gives back the store with the product active and unstamped;
      for a product that was active and unstamped, the very store archived. */
  lemma RestoreUndoesArchive(s: Store, id: Id, now: Time)
    requires id in s.products
    ensures Archive(s, id, now).Ok?
    ensures var r := Restore(Archive(s, id, now).value, id);
      && r.Ok?
      && r.value == s.(products := s.products[id := s.products[id].(isActive := Some(true), deletedAt := None)])
    ensures s.products[id].isActive == Some(true) && s.products[id].deletedAt.None? ==>
      Restore(Archive(s, id, now).value, id) == Ok(s)
  {
    var a := Archive(s, id, now).value;
    var r := Restore(a, id).value;
    var t := s.(products := s.products[id := s.products[id].(isActive := Some(true), deletedAt := None)]);
    assert r.products == t.products;
    if s.products[id].isActive == Some(true) && s.products[id].deletedAt.None? {
      assert t.products == s.products;
    }
  }

  lemma ArchiveKeepsConsistency(s: Store, id: Id, now: Time)
    requires StoreConsistent(s)
    ensures Archive(s, id, now).Ok? ==> StoreConsistent(Archive(s, id, now).value)
  {
  }

  lemma RestoreKeepsConsistency(s: Store, id: Id)
    requires StoreConsistent(s)
    ensures Restore(s, id).Ok? ==> StoreConsistent(Restore(s, id).value)
  {
  }

  /** Archiving an already archived product restarts its retention period from `now`. */
  lemma ArchiveAgainRestartsClock(s: Store, id: Id, t1: Time, t2: Time)
    requires id in s.products
    ensures var a := Archive(s, id, t1).value;
      Archive(a, id, t2).Ok? && Archive(a, id, t2).value.products[id].deletedAt == Some(t2)
  {
  }

  /** The images of the record being purged; a missing record reads as having none. */
  function ImagesOf(s: Store, id: Id): seq<Url> {
    if id in s.products then s.products[id].images else []
  }

  /** The purge branch of the click handler: every image URL of the record is tried in order
      (`resolve` is the SDK's reference lookup, `None` when it throws; paths in `blobFaults` fail
      to delete), then the record is deleted whatever became of the images. A failing record delete leaves the
      record in place after the images are gone. No archive state and no age is checked. */
  method Purge(s: Store, id: Id, resolve: Url -> Option<Path>, blobFaults: set<Path>, recordFails: bool)
    returns (t: Store, log: seq<Effect>)
    ensures log == AsEffects(Targets(ImagesOf(s, id), resolve)) + [DeleteRecord(id)]
    ensures t.blobs == s.blobs - Deleted(Targets(ImagesOf(s, id), resolve), blobFaults)
    ensures t.products == if recordFails then s.products else s.products - {id}
  {
    var remaining, attempted := DeleteImages(s.blobs, ImagesOf(s, id), resolve, blobFaults);
    log := AsEffects(attempted) + [DeleteRecord(id)];
    if recordFails {
      t := Store(s.products, remaining);
    } else {
      t := Store(s.products - {id}, remaining);
    }
  }

  /** A click on "Delete Permanently". The button carries both the `purge` and the `delete`
      classes, and the handler tests each class in its own `if`, so one click first asks to archive
      (`archiveConfirmed`) and then asks to purge (`purgeConfirmed`). An archive update on a missing
      record rejects and ends the handler before the purge. A record whose delete then fails is
      left archived at `now`, so its retention period has started again. */
  method DeletePermanentlyClick(s: Store, id: Id, now: Time, archiveConfirmed: bool, purgeConfirmed: bool,
                                resolve: Url -> Option<Path>, blobFaults: set<Path>, recordFails: bool)
    returns (t: Store, log: seq<Effect>)
    ensures archiveConfirmed && id !in s.products ==> t == s && log == []
    ensures !purgeConfirmed ==>
      log == [] && t == if archiveConfirmed && id in s.products then Archive(s, id, now).value else s
    ensures purgeConfirmed && !(archiveConfirmed && id !in s.products) ==>
      && log == AsEffects(Targets(ImagesOf(s, id), resolve)) + [DeleteRecord(id)]
      && t.blobs == s.blobs - Deleted(Targets(ImagesOf(s, id), resolve), blobFaults)
    ensures purgeConfirmed && !recordFails && !(archiveConfirmed && id !in s.products) ==>
      t.products == s.products - {id}
    ensures purgeConfirmed && recordFails && !archiveConfirmed ==> t.products == s.products
    ensures purgeConfirmed && recordFails && archiveConfirmed && id in s.products ==>
      && t.products == Archive(s, id, now).value.products
      && DaysLeft(t.products[id].deletedAt, now) == Some(RetentionDays)
  {
    var u := s;
    if archiveConfirmed {
      match Archive(s, id, now)
      case Err(_) =>
        return s, [];
      case Ok(a) =>
        u := a;
    }
    assert ImagesOf(u, id) == ImagesOf(s, id);
    if purgeConfirmed {
      t, log := Purge(u, id, resolve, blobFaults, recordFails);
    } else {
      t, log := u, [];
    }
  }

  /** `Math.max(0, 7 - Math.floor(elapsed / day))`; `None` is the `'N/A'` shown for a row
      without an archive stamp. The clock may be behind the stamp, so `elapsed` may be negative;
      Dafny's `/` rounds down for a positive divisor, as `Math.floor` of the quotient does. */
  function DaysLeft(deletedAt: Option<Time>, now: Time): (r: Option<int>)
    ensures r.None? <==> deletedAt.None?
    ensures r.Some? ==> r.value >= 0
    ensures r.Some? && r.value > 0 ==>
      var elapsed := now as int - deletedAt.value as int;
      (RetentionDays as int - r.value) * DayMs as int <= elapsed < (RetentionDays as int - r.value + 1) * DayMs as int
  {
    match deletedAt
    case None => None
    case Some(d) =>
      var left := RetentionDays as int - (now as int - d as int) / DayMs as int;
      Some(if left < 0 then 0 else left)
  }

  /** Once the stamp lies in the past, the countdown lies in [0, 7]. */
  lemma DaysLeftRange(d: Time, now: Time)
    requires d <= now
    ensures 0 <= DaysLeft(Some(d), now).value <= RetentionDays
  {
  }

  /** The countdown shows 0 exactly when the full retention period has elapsed. */
  lemma DaysLeftZeroIff(d: Time, now: Time)
    ensures DaysLeft(Some(d), now) == Some(0) <==> now as int - d as int >= RetentionDays as int * DayMs as int
  {
    var e := now as int - d as int;
    var q := e / DayMs as int;
    assert q * DayMs as int <= e < (q + 1) * DayMs as int;
    if q >= RetentionDays as int {
      MulLe(RetentionDays as int, q, DayMs as int);
    } else {
      MulLe(q + 1, RetentionDays as int, DayMs as int);
    }
  }

  lemma MulLe(a: int, b: int, c: int)
    requires a <= b && c >= 0
    ensures a * c <= b * c
  {
  }

  /** The countdown never goes up as time passes. */
  lemma DaysLeftMonotone(d: Time, now1: Time, now2: Time)
    requires now1 <= now2
    ensures DaysLeft(Some(d), now2).value <= DaysLeft(Some(d), now1).value
  {
    var e1 := now1 as int - d as int;
    var e2 := now2 as int - d as int;
    DivMonotone(e1, e2, DayMs as int);
  }

  lemma DivMonotone(a: int, b: int, m: int)
    requires a <= b && m > 0
    ensures a / m <= b / m
  {
    var qa := a / m;
    var qb := b / m;
    assert qa * m <= a;
    assert b < (qb + 1) * m;
    if qa > qb {
      MulLe(qb + 1, qa, m);
    }
  }

  /** The admin's main list: documents with `isActive == true`, newest `createdAt` first. */
  function ActiveList(docs: seq<Doc<Product>>): (r: seq<Doc<Product>>)
    ensures SortedDesc(r, (p: Product) => p.createdAt)
    ensures forall d :: d in r <==> d in docs && d.data.isActive == Some(true) && d.data.createdAt.Some?
    ensures forall d :: (multiset(r)[d] ==
      if d.data.isActive == Some(true) && d.data.createdAt.Some? then multiset(docs)[d] else 0)
  {
    var active := Where(docs, (p: Product) => p.isActive == Some(true));
    var r := OrderByDesc(active, (p: Product) => p.createdAt);
    assert forall d :: (multiset(r)[d] ==
      if d.data.isActive == Some(true) && d.data.createdAt.Some? then multiset(docs)[d] else 0) by {
      WhereCounts(docs, (p: Product) => p.isActive == Some(true));
      OrderByDescCounts(active, (p: Product) => p.createdAt);
    }
    r
  }

  /** The archived list: documents with `isActive == false`, most recently archived first. */
  function ArchivedList(docs: seq<Doc<Product>>): (r: seq<Doc<Product>>)
    ensures SortedDesc(r, (p: Product) => p.deletedAt)
    ensures forall d :: d in r <==> d in docs && Archived(d.data) && d.data.deletedAt.Some?
    ensures forall d :: (multiset(r)[d] ==
      if Archived(d.data) && d.data.deletedAt.Some? then multiset(docs)[d] else 0)
  {
    var archived := Where(docs, (p: Product) => Archived(p));
    var r := OrderByDesc(archived, (p: Product) => p.deletedAt);
    assert forall d :: (multiset(r)[d] ==
      if Archived(d.data) && d.data.deletedAt.Some? then multiset(docs)[d] else 0) by {
      WhereCounts(docs, (p: Product) => Archived(p));
      OrderByDescCounts(archived, (p: Product) => p.deletedAt);
    }
    r
  }

  /** In a snapshot that keeps the archive invariant, the archived list shows every archived
      product and nothing else; each row then has a countdown rather than `'N/A'`. */
  lemma ArchivedListComplete(docs: seq<Doc<Product>>, now: Time)
    requires forall i :: 0 <= i < |docs| ==> ArchiveConsistent(docs[i].data)
    ensures forall d :: d in ArchivedList(docs) <==> d in docs && Archived(d.data)
    ensures forall d :: d in ArchivedList(docs) ==> DaysLeft(d.data.deletedAt, now).Some?
  {
    forall d | d in docs && Archived(d.data)
      ensures d.data.deletedAt.Some?
    {
      var i :| 0 <= i < |docs| && docs[i] == d;
    }
  }
}

=== FILE: catalog.dfy ===
/**
 The `products` collection and the storage bucket, as the admin console, the public page and the
 scheduled purge all see them, and the archive invariant they are meant to keep.
 */
module Catalog {
  import opened Common

  /** One entry of a product's `images` array: the stored download-URL text, together with the
      pathname the WHATWG URL parser extracts from it (`None` when `new URL(text)` throws). */
  datatype Url = Url(text: string, pathname: Option<string>)

  /** A `products` document. `inventory` is `None` when the field is missing or holds `NaN`
      (both read as 0 by the public page); `isActive` is `None` when the field is missing. */
  datatype Product = Product(
    title: string,
    description: string,
    priceCents: int,
    inventory: Option<int>,
    images: seq<Url>,
    isActive: Option<bool>,
    createdAt: Option<Time>,
    updatedAt: Option<Time>,
    deletedAt: Option<Time>)

  /** An `orders` document: created by the public page's order request, updated by the admin's
      "Mark Processed". Missing fields are `None`. */
  datatype Order = Order(
    productId: string,
    email: Option<string>,
    status: Option<string>,
    createdAt: Option<Time>,
    processedAt: Option<Time>)

  /** The record store's `products` collection and the bucket's objects with their sizes. */
  datatype Store = Store(products: map<Id, Product>, blobs: map<Path, nat>)

  /** Archived means `isActive` holds exactly `false`. */
  predicate Archived(p: Product) {
    p.isActive == Some(false)
  }

  /** The archive invariant: `isActive == false` exactly when `deletedAt` is set. */
  predicate ArchiveConsistent(p: Product) {
    Archived(p) <==> p.deletedAt.Some?
  }

  /** A record-store `update` addressed to a document that does not exist fails. */
  datatype StoreError = NotFound

  predicate StoreConsistent(s: Store) {
    forall id :: id in s.products ==> ArchiveConsistent(s.products[id])
  }
}

=== FILE: cleanup.dfy ===
/**
 The best-effort image cleanup that both the admin console's "Delete Permanently" action and the
 scheduled purge run before removing a product record: every image URL is tried in list order,
 a URL that cannot be turned into an object reference is skipped, a deletion that fails is
 logged and skipped, and the loop always reaches the end of the list.
 */
module Cleanup {
  import opened Common
  import opened Catalog

  /** One write the cleanup issues, in the order it issues them. */
  datatype Effect = DeleteObject(path: Path) | DeleteRecord(id: Id)

  /** The object paths, in image-list order, for which a deletion is attempted: `resolve`
      returns `None` for a URL whose reference cannot be formed (the attempt is skipped). */
  function Targets(urls: seq<Url>, resolve: Url -> Option<Path>): (r: seq<Path>)
    ensures |r| <= |urls|
  {
    if |urls| == 0 then []
    else
      var rest := Targets(urls[1..], resolve);
      match resolve(urls[0])
      case None => rest
      case Some(p) => [p] + rest
  }

  /** Exactly the paths of the URLs `resolve` accepts are targeted. */
  lemma {:induction false} TargetsExactly(urls: seq<Url>, resolve: Url -> Option<Path>)
    ensures forall u :: u in urls && resolve(u).Some? ==> resolve(u).value in Targets(urls, resolve)
    ensures forall p :: p in Targets(urls, resolve) ==> exists u :: u in urls && resolve(u) == Some(p)
  {
    if |urls| > 0 {
      TargetsExactly(urls[1..], resolve);
      assert forall u :: u in urls ==> u == urls[0] || u in urls[1..];
    }
  }

  /** When every URL resolves, one deletion is attempted per URL, in list order. */
  lemma {:induction false} TargetsOfResolvable(urls: seq<Url>, resolve: Url -> Option<Path>)
    requires forall i :: 0 <= i < |urls| ==> resolve(urls[i]).Some?
    ensures |Targets(urls, resolve)| == |urls|
    ensures forall i :: 0 <= i < |urls| ==> Targets(urls, resolve)[i] == resolve(urls[i]).value
  {
    if |urls| > 0 {
      TargetsOfResolvable(urls[1..], resolve);
      var rest := Targets(urls[1..], resolve);
      assert Targets(urls, resolve) == [resolve(urls[0]).value] + rest;
      forall i | 1 <= i < |urls|
        ensures Targets(urls, resolve)[i] == resolve(urls[i]).value
      {
        assert urls[1..][i - 1] == urls[i];
      }
    }
  }

  function TargetOf(u: Url, resolve: Url -> Option<Path>): seq<Path> {
    match resolve(u)
    case None => []
    case Some(p) => [p]
  }

  lemma {:induction false} TargetsAppend(urls: seq<Url>, u: Url, resolve: Url -> Option<Path>)
    ensures Targets(urls + [u], resolve) == Targets(urls, resolve) + TargetOf(u, resolve)
  {
    if |urls| == 0 {
      assert urls + [u] == [u];
      assert [u][1..] == [];
    } else {
      assert (urls + [u])[1..] == urls[1..] + [u];
      TargetsAppend(urls[1..], u, resolve);
    }
  }

  /** The objects whose deletion succeeds: every attempted path not hit by a failure. */
  function Deleted(attempted: seq<Path>, faults: set<Path>): set<Path> {
    set p | p in attempted && p !in faults
  }

  lemma DeletedAppend(a: seq<Path>, b: seq<Path>, faults: set<Path>)
    ensures Deleted(a + b, faults) == Deleted(a, faults) + Deleted(b, faults)
  {
  }

  lemma SubtractTwice<K, V>(m: map<K, V>, x: set<K>, y: set<K>)
    ensures m - x - y == m - (x + y)
  {
  }

  function AsEffects(paths: seq<Path>): (r: seq<Effect>)
    ensures |r| == |paths| && forall i :: 0 <= i < |paths| ==> r[i] == DeleteObject(paths[i])
  {
    seq(|paths|, i requires 0 <= i < |paths| => DeleteObject(paths[i]))
  }

  /** Tries to delete the object behind every URL, in order. A deletion of a path in `faults`
      fails (network error, permission, already gone) and is skipped; the loop goes on. */
  method DeleteImages(blobs: map<Path, nat>, urls: seq<Url>, resolve: Url -> Option<Path>, faults: set<Path>)
    returns (remaining: map<Path, nat>, attempted: seq<Path>)
    ensures attempted == Targets(urls, resolve)
    ensures remaining == blobs - Deleted(attempted, faults)
    ensures forall p :: p in blobs && p !in attempted ==> p in remaining && remaining[p] == blobs[p]
  {
    remaining := blobs;
    attempted := [];
    var i := 0;
    while i < |urls|
      invariant 0 <= i <= |urls|
      invariant attempted == Targets(urls[..i], resolve)
      invariant remaining == blobs - Deleted(attempted, faults)
    {
      TargetsAppend(urls[..i], urls[i], resolve);
      assert urls[..i + 1] == urls[..i] + [urls[i]];
      var step := TargetOf(urls[i], resolve);
      DeletedAppend(attempted, step, faults);
      SubtractTwice(blobs, Deleted(attempted, faults), Deleted(step, faults));
      remaining := remaining - Deleted(step, faults);
      attempted := attempted + step;
      i := i + 1;
    }
    assert urls[..i] == urls;
  }
}

=== FILE: common.dfy ===
/** Failure-carrying wrappers and the scalar types shared by every module. */
module Common {

  /** A value that may be missing: a Firestore field that is absent, a prompt the user cancelled. */
  datatype Option<+T> = None | Some(value: T)

  /** The outcome of an operation that can fail with an error of type `E`. */
  datatype Result<+T, +E> = Ok(value: T) | Err(error: E)

  /** A document identifier assigned by the record store. */
  type Id = string

  /** A point in time, in milliseconds since the Unix epoch. */
  type Time = nat

  /** An object path inside the storage bucket. */
  type Path = string
}

=== FILE: contact.dfy ===
/**
 The contact form: the three fields are trimmed, email and message are required, the email must
 match `^[^\s@]+@[^\s@]+\.[^\s@]+$`, and only then is the inquiry written.
 */
module Contact {
  import opened Common
  import opened JsText

  /** One run of `[^\s@]+`: non-empty, no whitespace, no `@`. */
  predicate Part(x: string) {
    |x| > 0 && forall i :: 0 <= i < |x| ==> !IsSpace(x[i]) && x[i] != '@'
  }

  /** The language of the email pattern: three parts joined by `@` and a `.`. */
  ghost predicate MatchesPattern(s: string) {
    exists a, b, c :: Part(a) && Part(b) && Part(c) && s == a + "@" + b + "." + c
  }

  predicate NoAt(x: string) {
    forall i :: 0 <= i < |x| ==> x[i] != '@'
  }

  /** A `.` that is neither the first nor the last character. */
  predicate InnerDot(d: string) {
    exists j :: 0 < j < |d| - 1 && d[j] == '.'
  }

  /** The address check as a scan: no whitespace, and an `@` past the first character with no
      other `@` around it, after which the domain has an inner `.`. */
  predicate IsValidEmail(s: string) {
    && NoSpace(s)
    && exists k :: 0 < k < |s| && s[k] == '@' && NoAt(s[..k]) && NoAt(s[k + 1..]) && InnerDot(s[k + 1..])
  }

  lemma PatternFromSplit(s: string, k: nat, j: nat)
    requires NoSpace(s) && 0 < k < |s| && s[k] == '@' && NoAt(s[..k]) && NoAt(s[k + 1..])
    requires 0 < j < |s[k + 1..]| - 1 && s[k + 1..][j] == '.'
    ensures MatchesPattern(s)
  {
    var d := s[k + 1..];
    var a := s[..k];
    var b := d[..j];
    var c := d[j + 1..];
    assert s == a + "@" + b + "." + c;
    assert Part(a) && Part(b) && Part(c);
  }

  lemma NoSpaceAppend(x: string, y: string)
    requires NoSpace(x) && NoSpace(y)
    ensures NoSpace(x + y)
  {
    assert forall i :: |x| <= i < |x + y| ==> (x + y)[i] == y[i - |x|];
  }

  lemma NoAtAppend(x: string, y: string)
    requires NoAt(x) && NoAt(y)
    ensures NoAt(x + y)
  {
    assert forall i :: |x| <= i < |x + y| ==> (x + y)[i] == y[i - |x|];
  }

  lemma SplitFromPattern(s: string)
    requires MatchesPattern(s)
    ensures IsValidEmail(s)
  {
    var a, b, c :| Part(a) && Part(b) && Part(c) && s == a + "@" + b + "." + c;
    ValidFromParts(a, b, c);
  }

  lemma ValidFromParts(a: string, b: string, c: string)
    requires Part(a) && Part(b) && Part(c)
    ensures IsValidEmail(a + "@" + b + "." + c)
  {
    var d := b + "." + c;
    assert !IsSpace('@') && !IsSpace('.');
    NoAtAppend(b, ".");
    NoAtAppend(b + ".", c);
    assert d[|b|] == '.' && 0 < |b| < |d| - 1;
    NoSpaceAppend(b, ".");
    NoSpaceAppend(b + ".", c);
    AtSplit(a, d);
    assert a + "@" + b + "." + c == a + "@" + d;
  }

  /** `a + "@" + d` splits at its `@` back into `a` and `d`. */
  lemma AtSplit(a: string, d: string)
    requires |a| > 0 && NoSpace(a) && NoAt(a) && NoSpace(d) && NoAt(d) && InnerDot(d)
    ensures IsValidEmail(a + "@" + d)
  {
    var s := a + "@" + d;
    var k := |a|;
    assert s[..k] == a && s[k + 1..] == d;
    assert !IsSpace('@');
    NoSpaceAppend(a, "@");
    NoSpaceAppend(a + "@", d);
  }

  /** The scan accepts exactly the strings the pattern matches. */
  lemma ValidEmailIffPattern(s: string)
    ensures IsValidEmail(s) <==> MatchesPattern(s)
  {
    if IsValidEmail(s) {
      var k :| 0 < k < |s| && s[k] == '@' && NoAt(s[..k]) && NoAt(s[k + 1..]) && InnerDot(s[k + 1..]);
      var j :| 0 < j < |s[k + 1..]| - 1 && s[k + 1..][j] == '.';
      PatternFromSplit(s, k, j);
    }
    if MatchesPattern(s) {
      SplitFromPattern(s);
    }
  }

  lemma SingleAt(s: string, k: nat)
    requires k < |s| && s[k] == '@' && NoAt(s[..k]) && NoAt(s[k + 1..])
    ensures multiset(s)['@'] == 1
  {
    var a := s[..k];
    var d := s[k + 1..];
    assert s == a + [s[k]] + d;
    assert '@' !in a;
    assert '@' !in d;
    assert multiset(s) == multiset(a) + multiset{'@'} + multiset(d);
  }

  /** An accepted address has no whitespace, exactly one `@` with a non-empty local part before
      it, a domain with an inner `.`, and so at least five characters. */
  lemma AcceptedEmailShape(s: string)
    requires MatchesPattern(s)
    ensures NoSpace(s)
    ensures multiset(s)['@'] == 1
    ensures exists k :: 0 < k < |s| && s[k] == '@' && InnerDot(s[k + 1..])
    ensures |s| >= 5
  {
    SplitFromPattern(s);
    var k :| 0 < k < |s| && s[k] == '@' && NoAt(s[..k]) && NoAt(s[k + 1..]) && InnerDot(s[k + 1..]);
    SingleAt(s, k);
    var j :| 0 < j < |s[k + 1..]| - 1 && s[k + 1..][j] == '.';
  }

  /** A stored `inquiries` document. */
  datatype Inquiry = Inquiry(name: string, email: string, message: string, createdAt: Time)

  datatype ContactError = MissingEmailOrMessage | InvalidEmail | SendFailed

  /** The checks on the trimmed email and message, in the handler's order. */
  function Check(email: string, message: string): (r: Option<ContactError>)
    ensures r == Some(MissingEmailOrMessage) <==> email == "" || message == ""
    ensures r == Some(InvalidEmail) <==> email != "" && message != "" && !MatchesPattern(email)
    ensures r.None? <==> email != "" && message != "" && MatchesPattern(email)
    ensures r.None? ==> |email| >= 5
  {
    ValidEmailIffPattern(email);
    if email == "" || message == "" then Some(MissingEmailOrMessage)
    else if !IsValidEmail(email) then Some(InvalidEmail)
    else
      AcceptedEmailShape(email);
      None
  }

  /** The form's submit handler. `newId` is the identifier the store assigns; `writeFails` is a
      failed write. Every check runs before the write. */
  function Submit(inquiries: map<Id, Inquiry>, name: string, email: string, message: string,
                  now: Time, newId: Id, writeFails: bool): (r: Result<map<Id, Inquiry>, ContactError>)
    requires newId !in inquiries
    ensures r.Err? && r.error != SendFailed <==> Check(Trim(email), Trim(message)).Some?
    ensures r.Err? && r.error != SendFailed ==> r.error == Check(Trim(email), Trim(message)).value
    ensures r == Err(SendFailed) <==> Check(Trim(email), Trim(message)).None? && writeFails
    ensures r.Ok? ==>
      && r.value.Keys == inquiries.Keys + {newId}
      && (forall k :: k in inquiries ==> r.value[k] == inquiries[k])
      && r.value[newId] == Inquiry(Trim(name), Trim(email), Trim(message), now)
  {
    match Check(Trim(email), Trim(message))
    case Some(err) => Err(err)
    case None =>
      if writeFails then Err(SendFailed)
      else Ok(inquiries[newId := Inquiry(Trim(name), Trim(email), Trim(message), now)])
  }

  /** A stored inquiry's email matches the pattern and its message is non-empty, while its name
      may be empty. */
  lemma StoredInquiryValid(inquiries: map<Id, Inquiry>, name: string, email: string, message: string,
                           now: Time, newId: Id)
    requires newId !in inquiries
    requires Submit(inquiries, name, email, message, now, newId, false).Ok?
    ensures var q := Submit(inquiries, name, email, message, now, newId, false).value[newId];
      MatchesPattern(q.email) && q.message != "" && NoSpaceAtEnds(q.name) && |q.email| >= 5
  {
  }
}

=== FILE: image_prep.dfy ===
/**
 Client-side image preparation before upload: the bitmap is scaled down so that neither side
 exceeds `maxDim` (never up), re-encoded, and the caller uploads the re-encoded blob only when
 it is strictly smaller than the original file. Bitmap decoding and the encoder are browser
 facilities and enter as parameters that may fail.
 */
module ImagePrep {
  import opened Common

  /** A file picked in the form: its name and its size in bytes. */
  datatype ImageFile = ImageFile(name: string, size: nat)

  datatype Dims = Dims(width: nat, height: nat)

  /** How the canvas encoder ends: it throws, it hands `null` to the `toBlob` callback, or it
      produces a blob of the given size. */
  datatype EncoderResult = Throws | YieldsNull | Yields(size: nat)

  /** What `resizeAndConvertImage` resolves to. */
  datatype Prepared = OriginalFile | NullBlob | EncodedBlob(size: nat)

  /** Which body goes to storage. */
  datatype Upload = UploadOriginal | UploadOptimized(size: nat)

  /** The options the product form passes. */
  const FormMaxDim: nat := 2400

  function Min(a: real, b: real): real {
    if a <= b then a else b
  }

  /** `Math.min(maxDim / width, maxDim / height, 1)`. */
  function ScaleRatio(maxDim: nat, bitmap: Dims): (r: real)
    requires bitmap.width > 0 && bitmap.height > 0
    ensures 0.0 <= r <= 1.0
    ensures r * (bitmap.width as real) <= maxDim as real
    ensures r * (bitmap.height as real) <= maxDim as real
    ensures r == 1.0 || r * (bitmap.width as real) == maxDim as real || r * (bitmap.height as real) == maxDim as real
  {
    var m := maxDim as real;
    var w := bitmap.width as real;
    var h := bitmap.height as real;
    var r := Min(Min(m / w, m / h), 1.0);
    RatioFits(r, m, w);
    RatioFits(r, m, h);
    r
  }

  /** A ratio at most `m / x` scales `x` to at most `m`, and exactly to `m` when it equals it. */
  lemma RatioFits(r: real, m: real, x: real)
    requires m >= 0.0 && x > 0.0
    requires r <= m / x
    ensures r * x <= m
    ensures m / x >= 0.0
    ensures r == m / x ==> r * x == m
  {
    assert (m / x) * x == m;
    MulMono(r, m / x, x);
  }

  lemma MulMono(a: real, b: real, c: real)
    requires a <= b && c >= 0.0
    ensures a * c <= b * c
  {
  }

  /** `Math.round`: the nearest integer, halves rounded up. */
  function Round(x: real): (n: int)
    ensures x - 0.5 < n as real <= x + 0.5
    ensures x >= 0.0 ==> n >= 0
  {
    (x + 0.5).Floor
  }

  lemma RoundBelowInt(x: real, m: int)
    requires x <= m as real
    ensures Round(x) <= m
  {
  }

  lemma ScaledSideBounds(side: nat, r: real, maxDim: nat)
    requires 0.0 <= r <= 1.0 && r * (side as real) <= maxDim as real
    ensures side as real * r >= 0.0
    ensures 0 <= Round(side as real * r) <= maxDim && Round(side as real * r) <= side
  {
    var x := side as real * r;
    ScaledSide(side as real, r);
    RoundBelowInt(x, maxDim);
    RoundBelowInt(x, side);
  }

  lemma ScaledSide(s: real, r: real)
    requires s >= 0.0 && 0.0 <= r <= 1.0
    ensures s * r == r * s && 0.0 <= s * r <= s
  {
    MulMono(0.0, r, s);
    MulMono(r, 1.0, s);
  }

  /** Aspect ratio kept up to rounding: the cross products of old and new sides differ by at
      most half the sum of the original sides. */
  predicate KeepsAspect(bitmap: Dims, d: Dims) {
    var w := bitmap.width as real;
    var h := bitmap.height as real;
    var cross := d.width as real * h - d.height as real * w;
    -(w + h) / 2.0 <= cross <= (w + h) / 2.0
  }

  lemma ScaledKeepsAspect(bitmap: Dims, d: Dims, r: real)
    requires d.width == Round(bitmap.width as real * r) && d.height == Round(bitmap.height as real * r)
    ensures KeepsAspect(bitmap, d)
  {
    var w := bitmap.width as real;
    var h := bitmap.height as real;
    var a := d.width as real;
    var b := d.height as real;
    var ew := a - w * r;
    var eh := b - h * r;
    CrossOfErrors(a, b, w, h, r);
    BoundedProduct(ew, h);
    BoundedProduct(eh, w);
    HalfSums(a * h - b * w, ew * h, eh * w, w, h);
  }

  lemma HalfSums(cross: real, p: real, q: real, w: real, h: real)
    requires cross == p - q && -h / 2.0 <= p <= h / 2.0 && -w / 2.0 <= q <= w / 2.0
    ensures -(w + h) / 2.0 <= cross <= (w + h) / 2.0
  {
  }

  /** The cross product of the rounded sides is the cross product of their rounding errors. */
  lemma CrossOfErrors(a: real, b: real, w: real, h: real, r: real)
    ensures a * h - b * w == (a - w * r) * h - (b - h * r) * w
  {
    assert (a - w * r) * h == a * h - (w * r) * h;
    assert (b - h * r) * w == b * w - (h * r) * w;
    assert (w * r) * h == (h * r) * w;
  }

  /** Both sides multiplied by a ratio `r` in [0, 1] that brings them within `maxDim`, then
      rounded: the result fits in `maxDim` and never exceeds the original. */
  function ScaleBy(maxDim: nat, bitmap: Dims, r: real): (d: Dims)
    requires 0.0 <= r <= 1.0
    requires r * (bitmap.width as real) <= maxDim as real && r * (bitmap.height as real) <= maxDim as real
    ensures d.width <= maxDim && d.height <= maxDim
    ensures d.width <= bitmap.width && d.height <= bitmap.height
    ensures d.width == Round(bitmap.width as real * r) && d.height == Round(bitmap.height as real * r)
  {
    ScaledSideBounds(bitmap.width, r, maxDim);
    ScaledSideBounds(bitmap.height, r, maxDim);
    var w: nat := Round(bitmap.width as real * r);
    var h: nat := Round(bitmap.height as real * r);
    Dims(w, h)
  }

  /** Canvas size for the scaled bitmap: both sides scaled by `ScaleRatio` and rounded. */
  function TargetDims(maxDim: nat, bitmap: Dims): (d: Dims)
    requires bitmap.width > 0 && bitmap.height > 0
    ensures d.width <= maxDim && d.height <= maxDim
    ensures d.width <= bitmap.width && d.height <= bitmap.height
    ensures d == bitmap || d.width == maxDim || d.height == maxDim
  {
    ScaleBy(maxDim, bitmap, ScaleRatio(maxDim, bitmap))
  }

  lemma ScaleByKeepsAspect(maxDim: nat, bitmap: Dims, r: real)
    requires 0.0 <= r <= 1.0
    requires r * (bitmap.width as real) <= maxDim as real && r * (bitmap.height as real) <= maxDim as real
    ensures KeepsAspect(bitmap, ScaleBy(maxDim, bitmap, r))
  {
    ScaledKeepsAspect(bitmap, ScaleBy(maxDim, bitmap, r), r);
  }

  /** The canvas keeps the bitmap's aspect ratio up to rounding. */
  lemma TargetDimsKeepsAspect(maxDim: nat, bitmap: Dims)
    requires bitmap.width > 0 && bitmap.height > 0
    ensures KeepsAspect(bitmap, TargetDims(maxDim, bitmap))
  {
    ScaleByKeepsAspect(maxDim, bitmap, ScaleRatio(maxDim, bitmap));
  }

  /** An error of at most one half, times a non-negative side, is at most half that side. */
  lemma BoundedProduct(e: real, x: real)
    requires -0.5 <= e <= 0.5 && x >= 0.0
    ensures -x / 2.0 <= e * x <= x / 2.0
  {
    MulMono(e, 0.5, x);
    MulMono(-0.5, e, x);
  }

  /** `resizeAndConvertImage(file, { maxDim, ... })`. `bitmap` is what `createImageBitmap`
      produced (`None` when it rejected the file); `encode` is the canvas encoder. */
  function ResizeAndConvert(maxDim: nat, bitmap: Option<Dims>, encode: Dims -> EncoderResult): (r: Prepared)
    ensures bitmap.None? ==> r == OriginalFile
    ensures bitmap.Some? && bitmap.value.width > 0 && bitmap.value.height > 0 ==>
      (encode(TargetDims(maxDim, bitmap.value)).Throws? <==> r == OriginalFile)
    ensures r.EncodedBlob? ==>
      (&& bitmap.Some? && bitmap.value.width > 0 && bitmap.value.height > 0
       && encode(TargetDims(maxDim, bitmap.value)) == Yields(r.size))
    ensures bitmap.Some? && bitmap.value.width > 0 && bitmap.value.height > 0 ==>
      (&& (encode(TargetDims(maxDim, bitmap.value)).Yields? ==>
             r == EncodedBlob(encode(TargetDims(maxDim, bitmap.value)).size))
       && (encode(TargetDims(maxDim, bitmap.value)).YieldsNull? ==> r == NullBlob))
    ensures bitmap.Some? && (bitmap.value.width == 0 || bitmap.value.height == 0) ==> r == OriginalFile
  {
    match bitmap
    case None => OriginalFile
    case Some(b) =>
      if b.width == 0 || b.height == 0 then OriginalFile
      else
        match encode(TargetDims(maxDim, b))
        case Throws => OriginalFile
        case YieldsNull => NullBlob
        case Yields(n) => EncodedBlob(n)
  }

  function UploadSize(file: ImageFile, u: Upload): nat {
    match u
    case UploadOriginal => file.size
    case UploadOptimized(n) => n
  }

  /** The form's choice of upload body: the optimized blob only when it exists, is non-empty
      and is strictly smaller than the original. */
  function ChooseUpload(file: ImageFile, prepared: Prepared): (u: Upload)
    ensures UploadSize(file, u) <= file.size
    ensures u.UploadOptimized? <==> prepared.EncodedBlob? && 0 < prepared.size < file.size
    ensures u.UploadOptimized? ==> u.size == prepared.size
  {
    match prepared
    case EncodedBlob(n) => if n != 0 && n < file.size then UploadOptimized(n) else UploadOriginal
    case _ => UploadOriginal
  }

  /** A 4000x3000 photo with the form's limit becomes a 2400x1800 canvas. */
  lemma LandscapePhotoExample()
    ensures TargetDims(FormMaxDim, Dims(4000, 3000)) == Dims(2400, 1800)
  {
    var r := ScaleRatio(FormMaxDim, Dims(4000, 3000));
    assert r == 0.6;
  }

  /** With an encoder that throws, the original file is what gets uploaded. */
  lemma FailingEncoderUploadsOriginal(file: ImageFile, maxDim: nat, bitmap: Option<Dims>, encode: Dims -> EncoderResult)
    requires forall d :: encode(d) == Throws
    ensures ChooseUpload(file, ResizeAndConvert(maxDim, bitmap, encode)) == UploadOriginal
  {
  }
}

=== FILE: jstext.dfy ===
/**
 The handful of JavaScript string built-ins the storefront relies on, over `string` = `seq<char>`:
 white space as `\s` and `String.prototype.trim` see it, `trim`, `replace(/\s+/g, '_')`,
 decimal rendering of a number, `split` on a separator, `repeat`, and ASCII upper-casing.
 */
module JsText {
  import opened Common

  /** WhiteSpace and LineTerminator code points of ECMA-262: the set matched by the regular
      expression class `\s` and stripped by `String.prototype.trim`. */
  predicate IsSpace(c: char) {
    c in SpaceChars
  }

  const SpaceChars: set<char> :=
    {'\t', '\n', '\U{B}', '\U{C}', '\r', ' ', '\U{A0}', '\U{1680}', '\U{2000}', '\U{2001}',
     '\U{2002}', '\U{2003}', '\U{2004}', '\U{2005}', '\U{2006}', '\U{2007}', '\U{2008}',
     '\U{2009}', '\U{200A}', '\U{2028}', '\U{2029}', '\U{202F}', '\U{205F}', '\U{3000}',
     '\U{FEFF}'}

  predicate NoSpace(s: string) {
    forall i :: 0 <= i < |s| ==> !IsSpace(s[i])
  }

  predicate AllSpace(s: string) {
    forall i :: 0 <= i < |s| ==> IsSpace(s[i])
  }

  /** Drops the leading run of white space. */
  function TrimStart(s: string): (r: string)
    ensures |r| <= |s| && r == s[|s| - |r|..]
    ensures AllSpace(s[..|s| - |r|])
    ensures |r| > 0 ==> !IsSpace(r[0])
    ensures |s| > 0 && IsSpace(s[0]) ==> |r| < |s|
  {
    if |s| > 0 && IsSpace(s[0]) then
      var r := TrimStart(s[1..]);
      AllSpaceBehindSpace(s, |s| - |r|);
      r
    else s
  }

  lemma AllSpaceBehindSpace(s: string, n: nat)
    requires 0 < n <= |s| && IsSpace(s[0]) && AllSpace(s[1..][..n - 1])
    ensures AllSpace(s[..n])
  {
    forall i | 1 <= i < n
      ensures IsSpace(s[..n][i])
    {
      assert s[..n][i] == s[1..][..n - 1][i - 1];
    }
  }

  /** `String.prototype.trim`: the text between the leading and the trailing white-space runs. */
  function Trim(s: string): (r: string)
    ensures |r| <= |s|
    ensures NoSpaceAtEnds(r)
    ensures r == [] <==> AllSpace(s)
    decreases |s|
  {
    if |s| > 0 && IsSpace(s[0]) then
      assert forall i :: 1 <= i < |s| ==> s[i] == s[1..][i - 1];
      Trim(s[1..])
    else if |s| > 0 && IsSpace(s[|s| - 1]) then
      assert forall i :: 0 <= i < |s| - 1 ==> s[i] == s[..|s| - 1][i];
      Trim(s[..|s| - 1])
    else s
  }

  /** `r` is the slice `s[i..j]`, with only white space before and after it. */
  predicate InnerSlice(s: string, r: string, i: nat, j: nat) {
    i <= j <= |s| && r == s[i..j] && AllSpace(s[..i]) && AllSpace(s[j..])
  }

  lemma InnerSliceBehindSpace(s: string, r: string, i: nat, j: nat)
    requires |s| > 0 && IsSpace(s[0]) && InnerSlice(s[1..], r, i, j)
    ensures InnerSlice(s, r, i + 1, j + 1)
  {
    var t := s[1..];
    assert t[i..j] == s[i + 1..j + 1];
    assert t[j..] == s[j + 1..];
    assert forall k :: 0 <= k < i ==> t[..i][k] == s[..i + 1][k + 1];
  }

  lemma InnerSliceBeforeSpace(s: string, r: string, i: nat, j: nat)
    requires |s| > 0 && IsSpace(s[|s| - 1]) && InnerSlice(s[..|s| - 1], r, i, j)
    ensures InnerSlice(s, r, i, j)
  {
    var t := s[..|s| - 1];
    assert t[i..j] == s[i..j];
    assert t[..i] == s[..i];
    assert forall k :: 0 <= k < |s| - 1 - j ==> s[j..][k] == t[j..][k];
  }

  /** The trimmed text is the slice of the input between a leading and a trailing run of white
      space. */
  lemma {:induction false} TrimIsInnerSlice(s: string)
    ensures exists i, j :: InnerSlice(s, Trim(s), i, j)
    decreases |s|
  {
    if |s| > 0 && IsSpace(s[0]) {
      TrimIsInnerSlice(s[1..]);
      var i, j :| InnerSlice(s[1..], Trim(s[1..]), i, j);
      InnerSliceBehindSpace(s, Trim(s), i, j);
    } else if |s| > 0 && IsSpace(s[|s| - 1]) {
      TrimIsInnerSlice(s[..|s| - 1]);
      var i, j :| InnerSlice(s[..|s| - 1], Trim(s[..|s| - 1]), i, j);
      InnerSliceBeforeSpace(s, Trim(s), i, j);
    } else {
      assert InnerSlice(s, Trim(s), 0, |s|);
    }
  }

  predicate NoSpaceAtEnds(r: string) {
    |r| > 0 ==> !IsSpace(r[0]) && !IsSpace(r[|r| - 1])
  }

  /** Text already free of white space at both ends is left as it is. */
  lemma TrimFixesTrimmed(s: string)
    requires NoSpaceAtEnds(s)
    ensures Trim(s) == s
  {
  }

  /** Trimming twice is trimming once. */
  lemma TrimIdempotent(s: string)
    ensures Trim(Trim(s)) == Trim(s)
  {
    TrimFixesTrimmed(Trim(s));
  }

  /** `s.replace(/\s+/g, '_')`: every maximal run of white space becomes a single `_`. */
  function CollapseSpaces(s: string): (r: string)
    ensures NoSpace(r)
    ensures |r| <= |s|
    decreases |s|
  {
    if |s| == 0 then []
    else if IsSpace(s[0]) then "_" + CollapseSpaces(TrimStart(s))
    else [s[0]] + CollapseSpaces(s[1..])
  }

  /** A run of white space between text that does not touch it becomes exactly one `_`, and the
      text on either side is replaced on its own. */
  lemma {:induction false} CollapseRun(a: string, w: string, b: string)
    requires |w| > 0 && AllSpace(w)
    requires |a| == 0 || !IsSpace(a[|a| - 1])
    requires |b| == 0 || !IsSpace(b[0])
    ensures CollapseSpaces(a + w + b) == CollapseSpaces(a) + "_" + CollapseSpaces(b)
    decreases |a|
  {
    if |a| == 0 {
      CollapseRunAtStart(a, w, b);
    } else if IsSpace(a[0]) {
      TrimStartBeforeText(a, w + b);
      CollapseRun(TrimStart(a), w, b);
      CollapseRunAfterSpace(a, w, b);
    } else {
      CollapseRun(a[1..], w, b);
      CollapseRunAfterChar(a, w, b);
    }
  }

  lemma CollapseRunAtStart(a: string, w: string, b: string)
    requires |w| > 0 && AllSpace(w) && |a| == 0
    requires |b| == 0 || !IsSpace(b[0])
    ensures CollapseSpaces(a + w + b) == CollapseSpaces(a) + "_" + CollapseSpaces(b)
  {
    assert a == [];
    Regroup([], w, b, b);
    RunThenText(w, b);
    Regroup([], "_", b, b);
  }

  /** The step of `CollapseRun` for text that starts with white space. */
  lemma CollapseRunAfterSpace(a: string, w: string, b: string)
    requires |a| > 0 && IsSpace(a[0]) && !IsSpace(a[|a| - 1])
    requires CollapseSpaces(TrimStart(a) + w + b) == CollapseSpaces(TrimStart(a)) + "_" + CollapseSpaces(b)
    ensures CollapseSpaces(a + w + b) == CollapseSpaces(a) + "_" + CollapseSpaces(b)
  {
    var t := TrimStart(a);
    Regroup([], a, w, b);
    Regroup([], t, w, b);
    TrimStartBeforeText(a, w + b);
    CollapseLeadingRun(a, w + b, t);
    Regroup("_", CollapseSpaces(t), "_", CollapseSpaces(b));
  }

  /** The step of `CollapseRun` for text that starts with a non-space. */
  lemma CollapseRunAfterChar(a: string, w: string, b: string)
    requires |a| > 0 && !IsSpace(a[0])
    requires CollapseSpaces(a[1..] + w + b) == CollapseSpaces(a[1..]) + "_" + CollapseSpaces(b)
    ensures CollapseSpaces(a + w + b) == CollapseSpaces(a) + "_" + CollapseSpaces(b)
  {
    Regroup([], a, w, b);
    Regroup([], a[1..], w, b);
    CollapseLeadingChar(a, w + b);
    Regroup([a[0]], CollapseSpaces(a[1..]), "_", CollapseSpaces(b));
  }

  /** Concatenation regrouped: `h + (x + y + z)` is `h + x + y + z`, and the empty text is a
      left unit. */
  lemma Regroup(h: string, x: string, y: string, z: string)
    ensures h + (x + y + z) == h + x + y + z
    ensures x + (y + z) == x + y + z
    ensures [] + x == x
  {
  }

  lemma RunThenText(w: string, b: string)
    requires |w| > 0 && AllSpace(w)
    requires |b| == 0 || !IsSpace(b[0])
    ensures CollapseSpaces(w + b) == "_" + CollapseSpaces(b)
  {
    TrimStartSpacesThen(w, b);
    assert IsSpace((w + b)[0]);
  }

  lemma CollapseLeadingRun(a: string, u: string, t: string)
    requires |a| > 0 && IsSpace(a[0])
    requires t == TrimStart(a) && TrimStart(a + u) == t + u
    ensures CollapseSpaces(a + u) == "_" + CollapseSpaces(t + u)
    ensures CollapseSpaces(a) == "_" + CollapseSpaces(t)
  {
    assert IsSpace((a + u)[0]);
  }

  lemma CollapseLeadingChar(a: string, u: string)
    requires |a| > 0 && !IsSpace(a[0])
    ensures CollapseSpaces(a + u) == [a[0]] + CollapseSpaces(a[1..] + u)
    ensures CollapseSpaces(a) == [a[0]] + CollapseSpaces(a[1..])
  {
    assert (a + u)[0] == a[0];
    assert (a + u)[1..] == a[1..] + u;
  }

  /** Dropping the leading white space of a run followed by text leaves the text. */
  lemma {:induction false} TrimStartSpacesThen(w: string, b: string)
    requires AllSpace(w)
    requires |b| == 0 || !IsSpace(b[0])
    ensures TrimStart(w + b) == b
    decreases |w|
  {
    if |w| > 0 {
      assert (w + b)[1..] == w[1..] + b;
      TrimStartSpacesThen(w[1..], b);
    } else {
      assert w + b == b;
    }
  }

  /** The leading white space of text that ends in a non-space lies inside that text. */
  lemma {:induction false} TrimStartBeforeText(a: string, t: string)
    requires |a| > 0 && !IsSpace(a[|a| - 1])
    ensures TrimStart(a + t) == TrimStart(a) + t
    ensures |TrimStart(a)| > 0 && !IsSpace(TrimStart(a)[|TrimStart(a)| - 1])
    decreases |a|
  {
    if IsSpace(a[0]) {
      assert (a + t)[1..] == a[1..] + t;
      TrimStartBeforeText(a[1..], t);
    }
  }

  /** Text without white space is not altered by the replacement. */
  lemma {:induction false} CollapseKeepsSpaceFree(s: string)
    requires NoSpace(s)
    ensures CollapseSpaces(s) == s
    decreases |s|
  {
    if |s| > 0 {
      assert !IsSpace(s[0]);
      CollapseKeepsSpaceFree(s[1..]);
    }
  }

  /** Replacing the white-space runs a second time changes nothing. */
  lemma CollapseIdempotent(s: string)
    ensures CollapseSpaces(CollapseSpaces(s)) == CollapseSpaces(s)
  {
    CollapseKeepsSpaceFree(CollapseSpaces(s));
  }

  predicate IsDigit(c: char) {
    '0' <= c <= '9'
  }

  function DigitChar(d: nat): (c: char)
    requires d < 10
    ensures IsDigit(c)
  {
    "0123456789"[d]
  }

  function DigitValue(c: char): (d: nat)
    requires IsDigit(c)
    ensures d < 10
  {
    (c as int) - ('0' as int)
  }

  /** The value of a string of decimal digits. */
  function DigitsValue(s: string): nat
    requires forall i :: 0 <= i < |s| ==> IsDigit(s[i])
  {
    if |s| == 0 then 0 else 10 * DigitsValue(s[..|s| - 1]) + DigitValue(s[|s| - 1])
  }

  /** `String(n)` for a non-negative integer: its shortest decimal numeral. */
  function Decimal(n: nat): (r: string)
    ensures |r| > 0
    ensures forall i :: 0 <= i < |r| ==> IsDigit(r[i])
    ensures r[0] == '0' ==> n == 0
  {
    if n < 10 then [DigitChar(n)] else Decimal(n / 10) + [DigitChar(n % 10)]
  }

  /** Reading the numeral back gives the number. */
  lemma {:induction false} DecimalRoundTrip(n: nat)
    ensures DigitsValue(Decimal(n)) == n
  {
    if n >= 10 {
      var r := Decimal(n);
      assert r[..|r| - 1] == Decimal(n / 10);
      DecimalRoundTrip(n / 10);
    } else {
      assert DigitValue("0123456789"[n]) == n;
    }
  }

  /** `pat` occurs in `s` starting at index `i`. */
  predicate OccursAt(s: string, pat: string, i: nat) {
    i + |pat| <= |s| && s[i..i + |pat|] == pat
  }

  /** `s.indexOf(pat)`: the first index at which `pat` occurs, if any. */
  function IndexOf(s: string, pat: string): (r: Option<nat>)
    ensures r.Some? ==> OccursAt(s, pat, r.value)
    ensures r.Some? ==> forall j :: 0 <= j < r.value ==> !OccursAt(s, pat, j)
    ensures r.None? ==> forall j :: 0 <= j <= |s| ==> !OccursAt(s, pat, j)
  {
    if |s| < |pat| then None
    else if s[..|pat|] == pat then Some(0)
    else
      var rest := IndexOf(s[1..], pat);
      assert forall j :: 0 < j <= |s| ==> (OccursAt(s, pat, j) <==> OccursAt(s[1..], pat, j - 1));
      match rest
      case None => None
      case Some(k) => Some(k + 1)
  }

  /** Element 1 of `s.split(sep)` for a non-empty separator: the text between the first
      occurrence of `sep` and the next one (or the end); `None` when `sep` does not occur,
      that is, when the split yields a single part. */
  function SecondPart(s: string, sep: string): (r: Option<string>)
    requires |sep| > 0
    ensures r.Some? <==> IndexOf(s, sep).Some?
    ensures r.Some? ==> PartAt(s, sep, IndexOf(s, sep).value + |sep|, r.value)
  {
    match IndexOf(s, sep)
    case None => None
    case Some(i) => Some(PartFrom(s, sep, i + |sep|))
  }

  /** `v` is the split part that starts at index `b` of `s`: the text from `b` up to the next
      occurrence of `sep` at or after `b`, or to the end when there is none. */
  predicate PartAt(s: string, sep: string, b: nat, v: string) {
    && b + |v| <= |s|
    && s[b..b + |v|] == v
    && (forall j :: b <= j < b + |v| ==> !OccursAt(s, sep, j))
    && (b + |v| == |s| || OccursAt(s, sep, b + |v|))
  }

  /** The split part of `s` that starts at `b`. */
  function PartFrom(s: string, sep: string, b: nat): (v: string)
    requires b <= |s|
    ensures PartAt(s, sep, b, v)
  {
    var rest := s[b..];
    match IndexOf(rest, sep)
    case None =>
      PartToEnd(s, sep, b);
      rest
    case Some(k) =>
      PartToNext(s, sep, b, k);
      rest[..k]
  }

  lemma PartToEnd(s: string, sep: string, b: nat)
    requires b <= |s|
    requires forall j :: 0 <= j <= |s| - b ==> !OccursAt(s[b..], sep, j)
    ensures PartAt(s, sep, b, s[b..])
  {
    OccursShifted(s, sep, b, |s|);
  }

  lemma PartToNext(s: string, sep: string, b: nat, k: nat)
    requires b + k <= |s|
    requires OccursAt(s[b..], sep, k)
    requires forall j :: 0 <= j < k ==> !OccursAt(s[b..], sep, j)
    ensures PartAt(s, sep, b, s[b..][..k])
  {
    OccursShifted(s, sep, b, b + k);
    assert s[b + k..b + k + |sep|] == s[b..][k..k + |sep|];
  }

  /** An occurrence in the suffix `s[b..]` is an occurrence in `s`, shifted by `b`. */
  lemma OccursShifted(s: string, sep: string, b: nat, e: nat)
    requires b <= e <= |s|
    requires forall j :: 0 <= j < e - b ==> !OccursAt(s[b..], sep, j)
    ensures forall j :: b <= j < e ==> !OccursAt(s, sep, j)
  {
    forall j | b <= j < e
      ensures !OccursAt(s, sep, j)
    {
      assert !OccursAt(s[b..], sep, j - b);
      if j + |sep| <= |s| {
        assert s[j..j + |sep|] == s[b..][j - b..j - b + |sep|];
      }
    }
  }

  /** `c.toUpperCase()` restricted to ASCII letters. */
  function AsciiUpper(c: char): (u: char)
    ensures 'a' <= c <= 'z' ==> 'A' <= u <= 'Z' && (u as int) + 32 == c as int
    ensures !('a' <= c <= 'z') ==> u == c
  {
    if 'a' <= c <= 'z' then ((c as int) - 32) as char else c
  }

  /** `c.repeat(n)`. */
  function Repeat(c: char, n: nat): (r: string)
    ensures |r| == n && forall i :: 0 <= i < n ==> r[i] == c
  {
    seq(n, _ => c)
  }
}

=== FILE: object_paths.dfy ===
/**
 Storage download URLs and the way the scheduled purge turns one back into an object path:
 take the URL's pathname, keep the part after the first `/o/` (up to the next one), and
 percent-decode it.
 */
module ObjectPaths {
  import opened Common
  import opened JsText
  import UriComponent
  import opened Catalog

  const DownloadOrigin: string := "https://firebasestorage.googleapis.com"

  /** The pathname of the download URL the storage service hands out for `path` in `bucket`:
      `/v0/b/<bucket>/o/<encodeURIComponent(path)>`. */
  function DownloadPathname(bucket: string, path: Path): string {
    "/v0/b/" + bucket + "/o/" + UriComponent.Encode(path)
  }

  /** The download URL returned by `getDownloadURL()` after an upload to `path`. */
  function DownloadUrl(bucket: string, path: Path, token: string): Url {
    var pathname := DownloadPathname(bucket, path);
    Url(DownloadOrigin + pathname + "?alt=media&token=" + token, Some(pathname))
  }

  /** The object path the purge deletes for an image URL; `None` when it makes no deletion
      attempt: the URL does not parse, its pathname has no `/o/`, or the segment is not
      valid percent-encoding. The query string is not part of the pathname and so never
      reaches the path. */
  function ObjectPathOf(u: Url): (r: Option<Path>)
    ensures u.pathname.None? ==> r.None?
    ensures u.pathname.Some? && (forall j :: 0 <= j <= |u.pathname.value| ==> !OccursAt(u.pathname.value, "/o/", j))
            ==> r.None?
    ensures r.Some? ==> exists seg :: UriComponent.Decode(seg) == Some(r.value) && SecondPart(u.pathname.value, "/o/") == Some(seg)
    ensures u.pathname.Some? && SecondPart(u.pathname.value, "/o/").Some? ==>
      r == UriComponent.Decode(SecondPart(u.pathname.value, "/o/").value)
  {
    match u.pathname
    case None => None
    case Some(p) =>
      match SecondPart(p, "/o/")
      case None => None
      case Some(seg) => UriComponent.Decode(seg)
  }

  /** Bucket names for which the `/o/` split finds the object segment: no `/`, and not the
      single letter `o` (which storage bucket naming rules, requiring three characters or more,
      already exclude). */
  predicate SplittableBucket(bucket: string) {
    && (forall i :: 0 <= i < |bucket| ==> bucket[i] != '/')
    && bucket != "o"
  }

  lemma FirstOccurrence(s: string, pat: string, i: nat)
    requires OccursAt(s, pat, i)
    requires forall j :: 0 <= j < i ==> !OccursAt(s, pat, j)
    ensures IndexOf(s, pat) == Some(i)
  {
    match IndexOf(s, pat)
    case None =>
    case Some(k) =>
      if k > i {
      }
  }

  lemma NoSeparatorBeforeObject(bucket: string, tail: string)
    requires SplittableBucket(bucket)
    ensures forall j :: 0 <= j < 6 + |bucket| ==> !OccursAt("/v0/b/" + bucket + "/o/" + tail, "/o/", j)
  {
    var s := "/v0/b/" + bucket + "/o/" + tail;
    forall j | 0 <= j < 6 + |bucket|
      ensures !OccursAt(s, "/o/", j)
    {
      assert j + 3 <= |s|;
      var w := s[j..j + 3];
      assert w[0] == s[j] && w[1] == s[j + 1] && w[2] == s[j + 2];
      if j >= 6 {
        assert s[j] == bucket[j - 6];
      } else if j == 5 {
        if |bucket| == 0 {
          assert s[6] == '/';
        } else if |bucket| == 1 {
          assert s[6] == bucket[0] && s[7] == '/';
          assert bucket == [bucket[0]];
          assert bucket[0] != 'o';
        } else {
          assert s[7] == bucket[1];
        }
      } else {
        assert s[..6] == "/v0/b/";
        assert s[j] == "/v0/b/"[j];
        assert s[j + 1] == "/v0/b/"[j + 1];
      }
    }
  }

  /** Text without a `/` contains no `/o/`. */
  lemma NoSeparatorWithoutSlash(t: string)
    requires forall i :: 0 <= i < |t| ==> t[i] != '/'
    ensures IndexOf(t, "/o/") == None
  {
    forall j | 0 <= j <= |t|
      ensures !OccursAt(t, "/o/", j)
    {
      if j + 3 <= |t| {
        assert t[j..j + 3][0] == t[j];
      }
    }
  }

  /** The object segment of a download pathname is the encoded path. */
  lemma SegmentOfDownloadPathname(bucket: string, enc: string)
    requires SplittableBucket(bucket)
    requires forall i :: 0 <= i < |enc| ==> enc[i] != '/'
    ensures SecondPart("/v0/b/" + bucket + "/o/" + enc, "/o/") == Some(enc)
  {
    var s := "/v0/b/" + bucket + "/o/" + enc;
    var i := 6 + |bucket|;
    assert s[i..i + 3] == "/o/";
    NoSeparatorBeforeObject(bucket, enc);
    FirstOccurrence(s, "/o/", i);
    assert s[i + 3..] == enc;
    NoSeparatorWithoutSlash(enc);
  }

  /** Round trip: the purge recovers, from a download URL, exactly the object path that was
      uploaded, whatever the path and the access token. */
  lemma ObjectPathOfDownloadUrl(bucket: string, path: Path, token: string)
    requires SplittableBucket(bucket)
    ensures ObjectPathOf(DownloadUrl(bucket, path, token)) == Some(path)
  {
    UriComponent.EncodeAlphabet(path);
    SegmentOfDownloadPathname(bucket, UriComponent.Encode(path));
    UriComponent.DecodeEncode(path);
  }

  /** Why the bucket may not be named `o`: the first `/o/` is then found inside `/b/o/o/`, and the
      path recovered from a download URL for `a` is `o/a`. */
  lemma BucketNamedOMisleadsSplit(token: string)
    ensures ObjectPathOf(DownloadUrl("o", "a", token)) == Some("o/a")
  {
    PathnameForBucketO();
    var u := DownloadUrl("o", "a", token);
    assert u.pathname == Some("/v0/b/o/o/a");
    SegmentForBucketO();
    NoPercentInOA();
    assert ObjectPathOf(u) == UriComponent.Decode("o/a");
  }

  lemma PathnameForBucketO()
    ensures DownloadPathname("o", "a") == "/v0/b/o/o/a"
  {
    EncodeLetterA();
  }

  lemma NoPercentInOA()
    ensures UriComponent.Decode("o/a") == Some("o/a")
  {
    UriComponent.DecodeWithoutPercent("o/a");
  }

  lemma EncodeLetterA()
    ensures UriComponent.Encode("a") == "a"
  {
    assert UriComponent.Encode("a") == UriComponent.EncodeChar('a') + UriComponent.Encode("");
  }

  lemma SegmentForBucketO()
    ensures SecondPart("/v0/b/o/o/a", "/o/") == Some("o/a")
  {
    var s := "/v0/b/o/o/a";
    assert s[5..8] == "/o/";
    forall j | 0 <= j < 5
      ensures !OccursAt(s, "/o/", j)
    {
      assert s[j..j + 3][0] == s[j] && s[j..j + 3][1] == s[j + 1];
    }
    FirstOccurrence(s, "/o/", 5);
    assert s[8..] == "o/a";
    NoSeparatorAfterO();
  }

  lemma NoSeparatorAfterO()
    ensures IndexOf("o/a", "/o/") == None
  {
    assert !OccursAt("o/a", "/o/", 0) by {
      assert "o/a"[0..3][0] == 'o';
    }
  }
}

=== FILE: public_catalog.dfy ===
/**
 The public catalog page: the live `products` listener ordered by creation time, the filter that
 keeps products on sale, the featured strip, the product cards' fallback images and the order
 request a visitor files from a card.
 */
module PublicCatalog {
  import opened Common
  import opened JsText
  import opened Catalog
  import opened Query

  /** Number of cards in the featured strip. */
  const FeaturedCount: nat := 4

  /** Number of bundled placeholder images the cards cycle through. */
  const PlaceholderCount: nat := 3

  /** `data.inventory || 0`: a missing or `NaN` stock reads as 0. */
  function Stock(p: Product): int {
    if p.inventory.Some? then p.inventory.value else 0
  }

  /** On sale: not explicitly deactivated (a missing `isActive` counts as active) and in stock. */
  predicate Visible(p: Product) {
    p.isActive != Some(false) && Stock(p) > 0
  }

  function CreatedAt(p: Product): Option<int> {
    p.createdAt
  }

  /** The products the page lists: the `orderBy('createdAt', 'desc')` snapshot of `docs`,
      filtered on the client. */
  function CatalogList(docs: seq<Doc<Product>>): (r: seq<Doc<Product>>)
    ensures SortedDesc(r, CreatedAt)
    ensures forall d :: d in r <==> d in docs && d.data.createdAt.Some? && Visible(d.data)
    ensures forall d :: (multiset(r)[d] ==
      if d.data.createdAt.Some? && Visible(d.data) then multiset(docs)[d] else 0)
  {
    var snapshot := OrderByDesc(docs, CreatedAt);
    WhereKeepsOrder(snapshot, Visible, CreatedAt);
    var r := Where(snapshot, Visible);
    assert forall d :: (multiset(r)[d] ==
      if d.data.createdAt.Some? && Visible(d.data) then multiset(docs)[d] else 0) by {
      OrderByDescCounts(docs, CreatedAt);
      WhereCounts(snapshot, Visible);
    }
    r
  }

  /** `products.slice(0, 4)`: the first listed products, at most four. */
  function Featured(list: seq<Doc<Product>>): (r: seq<Doc<Product>>)
    ensures |r| == if |list| < FeaturedCount then |list| else FeaturedCount
    ensures r == list[..|r|]
  {
    Limit(list, FeaturedCount)
  }

  /** The image a card shows: the product's first image when present and non-empty, else the
      bundled `bouquet1.svg`, `bouquet2.svg`, `bouquet3.svg` in turn by card position. */
  function CardImage(p: Product, i: nat): string {
    if |p.images| > 0 && p.images[0].text != "" then p.images[0].text
    else "/assets/images/bouquet" + [DigitChar(i % PlaceholderCount + 1)] + ".svg"
  }

  /** Without an image of its own a card shows one of the three placeholders, chosen with
      period three in the card's position. */
  lemma PlaceholderChoice(p: Product, i: nat)
    requires |p.images| == 0 || p.images[0].text == ""
    ensures exists k :: 1 <= k <= PlaceholderCount && CardImage(p, i) == "/assets/images/bouquet" + [DigitChar(k)] + ".svg"
    ensures CardImage(p, i + PlaceholderCount) == CardImage(p, i)
  {
    var k := i % PlaceholderCount + 1;
    assert CardImage(p, i) == "/assets/images/bouquet" + [DigitChar(k)] + ".svg";
    assert (i + PlaceholderCount) % PlaceholderCount == i % PlaceholderCount;
  }

  datatype Card = Card(id: Id, image: string, title: string)

  function Cards(list: seq<Doc<Product>>): (r: seq<Card>)
    ensures |r| == |list|
    ensures forall i :: 0 <= i < |list| ==>
      r[i] == Card(list[i].id, CardImage(list[i].data, i), list[i].data.title)
  {
    seq(|list|, i requires 0 <= i < |list| => Card(list[i].id, CardImage(list[i].data, i), list[i].data.title))
  }

  /** The catalog grid: the sample-product fallback when nothing is on sale, else one card per
      listed product. */
  datatype CatalogGrid = SampleFallback | Grid(cards: seq<Card>)

  datatype Page = Page(featured: seq<Card>, catalog: CatalogGrid)

  /** One snapshot rendered: the featured strip is always drawn (empty when nothing is on sale)
      and the grid falls back exactly when the list is empty. */
  function Render(docs: seq<Doc<Product>>): (page: Page)
    ensures page.catalog.SampleFallback? <==> |CatalogList(docs)| == 0
    ensures |page.featured| <= FeaturedCount
    ensures page.catalog.Grid? ==> page.catalog.cards == Cards(CatalogList(docs))
    ensures page.featured == Cards(Featured(CatalogList(docs)))
    ensures page.catalog.Grid? ==> |page.catalog.cards| == |CatalogList(docs)|
    ensures page.catalog.Grid? ==>
      |page.featured| <= |page.catalog.cards| && page.featured == page.catalog.cards[..|page.featured|]
  {
    var list := CatalogList(docs);
    var featured := Cards(Featured(list));
    if |list| == 0 then Page(featured, SampleFallback)
    else
      assert featured == Cards(list)[..|featured|];
      Page(featured, Grid(Cards(list)))
  }

  /** A visitor's order request. `email` is what the prompt returned (`None` when cancelled);
      `newId` is the identifier the store assigns; when the write fails the page only pretends to
      have sent it. */
  function RequestOrder(orders: map<Id, Order>, productId: Id, email: Option<string>, now: Time,
                        newId: Id, writeFails: bool): (r: map<Id, Order>)
    requires newId !in orders
    ensures email.None? || email == Some("") || writeFails ==> r == orders
    ensures email.Some? && email.value != "" && !writeFails ==>
      && r.Keys == orders.Keys + {newId}
      && (forall k :: k in orders ==> r[k] == orders[k])
      && r[newId].productId == productId && r[newId].email == email
      && r[newId].status == Some("new") && r[newId].createdAt == Some(now)
      && r[newId].processedAt.None?
  {
    if email.None? || email.value == "" || writeFails then orders
    else orders[newId := Order(productId, email, Some("new"), Some(now), None)]
  }
}

=== FILE: query.dfy ===
/**
 The record-store queries the storefront issues, over a snapshot given as a sequence of documents:
 an equality filter (`where(field, '==', v)`), a descending sort on a timestamp field
 (`orderBy(field, 'desc')`, which leaves out documents lacking the field) and `limit(n)`.
 */
module Query {
  import opened Common

  datatype Doc<T> = Doc(id: Id, data: T)

  /** `where(...)`: the documents `keep` accepts, in snapshot order. */
  function Where<T(!new)>(docs: seq<Doc<T>>, keep: T -> bool): (r: seq<Doc<T>>)
    ensures |r| <= |docs|
    ensures forall d :: d in r <==> d in docs && keep(d.data)
  {
    if |docs| == 0 then []
    else if keep(docs[0].data) then [docs[0]] + Where(docs[1..], keep)
    else Where(docs[1..], keep)
  }

  /** The filter keeps every accepted document as often as the snapshot holds it, and no other:
      no document is duplicated or dropped. */
  lemma {:induction false} WhereCounts<T(!new)>(docs: seq<Doc<T>>, keep: T -> bool)
    ensures forall d :: multiset(Where(docs, keep))[d] == if keep(d.data) then multiset(docs)[d] else 0
  {
    if |docs| > 0 {
      WhereCounts(docs[1..], keep);
      assert docs == [docs[0]] + docs[1..];
    }
  }

  /** A result whose counts are bounded pointwise by the snapshot's is a sub-multiset of it. */
  lemma CountsWithin<T>(r: seq<Doc<T>>, docs: seq<Doc<T>>, sel: T -> bool)
    requires forall d :: multiset(r)[d] == if sel(d.data) then multiset(docs)[d] else 0
    ensures multiset(r) <= multiset(docs)
  {
  }

  /** Every document carries the ordering field. */
  predicate HasKeys<T>(docs: seq<Doc<T>>, key: T -> Option<int>) {
    forall i :: 0 <= i < |docs| ==> key(docs[i].data).Some?
  }

  /** Newest first: the ordering field never increases along the sequence. */
  predicate SortedDesc<T>(docs: seq<Doc<T>>, key: T -> Option<int>) {
    && HasKeys(docs, key)
    && forall i, j :: 0 <= i < j < |docs| ==> key(docs[j].data).value <= key(docs[i].data).value
  }

  lemma ConsSorted<T>(d: Doc<T>, docs: seq<Doc<T>>, key: T -> Option<int>)
    requires key(d.data).Some? && SortedDesc(docs, key)
    requires forall e :: e in docs ==> key(e.data).value <= key(d.data).value
    ensures SortedDesc([d] + docs, key)
  {
    var r := [d] + docs;
    forall i, j | 0 <= i < j < |r|
      ensures key(r[j].data).value <= key(r[i].data).value
    {
      assert r[j] == docs[j - 1];
      assert r[j] in docs;
      if i > 0 {
        assert r[i] == docs[i - 1];
      }
    }
  }

  /** Filtering a sorted snapshot leaves it sorted. */
  lemma {:induction false} WhereKeepsOrder<T(!new)>(docs: seq<Doc<T>>, keep: T -> bool, key: T -> Option<int>)
    requires SortedDesc(docs, key)
    ensures SortedDesc(Where(docs, keep), key)
  {
    if |docs| > 0 {
      var rest := docs[1..];
      assert SortedDesc(rest, key);
      WhereKeepsOrder(rest, keep, key);
      if keep(docs[0].data) {
        forall e | e in Where(rest, keep)
          ensures key(e.data).value <= key(docs[0].data).value
        {
          var j :| 0 <= j < |rest| && rest[j] == e;
          assert docs[j + 1] == e;
        }
        ConsSorted(docs[0], Where(rest, keep), key);
      }
    }
  }

  lemma HeadIsNewest<T>(docs: seq<Doc<T>>, key: T -> Option<int>)
    requires |docs| > 0 && SortedDesc(docs, key)
    ensures forall e :: e in docs ==> key(e.data).value <= key(docs[0].data).value
  {
    forall e | e in docs
      ensures key(e.data).value <= key(docs[0].data).value
    {
      var j :| 0 <= j < |docs| && docs[j] == e;
    }
  }

  lemma InsertedMember<T>(e: Doc<T>, r: seq<Doc<T>>, docs: seq<Doc<T>>, d: Doc<T>)
    requires multiset(r) == multiset(docs) + multiset{d}
    requires e in r
    ensures e == d || e in docs
  {
    assert e in multiset(r);
  }

  function Insert<T>(d: Doc<T>, docs: seq<Doc<T>>, key: T -> Option<int>): (r: seq<Doc<T>>)
    requires key(d.data).Some? && SortedDesc(docs, key)
    ensures SortedDesc(r, key)
    ensures multiset(r) == multiset(docs) + multiset{d}
    decreases |docs|, 1
  {
    if |docs| == 0 then
      ConsSorted(d, docs, key);
      [d]
    else if key(docs[0].data).value <= key(d.data).value then
      HeadIsNewest(docs, key);
      ConsSorted(d, docs, key);
      [d] + docs
    else
      InsertBehind(d, docs, key)
  }

  function InsertBehind<T>(d: Doc<T>, docs: seq<Doc<T>>, key: T -> Option<int>): (r: seq<Doc<T>>)
    requires key(d.data).Some? && SortedDesc(docs, key)
    requires |docs| > 0 && key(d.data).value < key(docs[0].data).value
    ensures SortedDesc(r, key)
    ensures multiset(r) == multiset(docs) + multiset{d}
    decreases |docs|, 0
  {
    var rest := docs[1..];
    assert SortedDesc(rest, key);
    var tail := Insert(d, rest, key);
    assert docs == [docs[0]] + rest;
    HeadIsNewest(docs, key);
    forall e | e in tail
      ensures key(e.data).value <= key(docs[0].data).value
    {
      InsertedMember(e, tail, rest, d);
    }
    ConsSorted(docs[0], tail, key);
    [docs[0]] + tail
  }

  /** Insertion sort on the ordering field, newest first. */
  function Sort<T>(docs: seq<Doc<T>>, key: T -> Option<int>): (r: seq<Doc<T>>)
    requires HasKeys(docs, key)
    ensures SortedDesc(r, key)
    ensures multiset(r) == multiset(docs)
  {
    if |docs| == 0 then []
    else
      assert docs == [docs[0]] + docs[1..];
      Insert(docs[0], Sort(docs[1..], key), key)
  }

  /** `orderBy(field, 'desc')`: exactly the documents that carry the field, newest first. */
  function OrderByDesc<T(!new)>(docs: seq<Doc<T>>, key: T -> Option<int>): (r: seq<Doc<T>>)
    ensures SortedDesc(r, key)
    ensures forall d :: d in r <==> d in docs && key(d.data).Some?
  {
    var present := Where(docs, KeyPresent(key));
    var r := Sort(present, key);
    assert forall d :: d in r <==> d in present by {
      forall d
        ensures d in r <==> d in present
      {
        assert d in r <==> d in multiset(r);
        assert d in present <==> d in multiset(present);
      }
    }
    r
  }

  /** The documents that carry the ordering field. */
  function KeyPresent<T>(key: T -> Option<int>): T -> bool {
    (t: T) => key(t).Some?
  }

  /** The sort neither duplicates nor drops a document that carries the field. */
  lemma OrderByDescCounts<T(!new)>(docs: seq<Doc<T>>, key: T -> Option<int>)
    ensures forall d :: multiset(OrderByDesc(docs, key))[d] == if key(d.data).Some? then multiset(docs)[d] else 0
  {
    WhereCounts(docs, KeyPresent(key));
  }

  /** `limit(n)`. */
  function Limit<T>(docs: seq<T>, n: nat): (r: seq<T>)
    ensures |r| == if |docs| < n then |docs| else n
    ensures r == docs[..|r|]
  {
    if |docs| < n then docs else docs[..n]
  }

  /** A limited result holds no document more often than the snapshot. */
  lemma LimitWithin<T>(docs: seq<T>, n: nat)
    ensures multiset(Limit(docs, n)) <= multiset(docs)
  {
    var r := Limit(docs, n);
    assert docs == r + docs[|r|..];
  }
}

=== FILE: reviews.dfy ===
/**
 Customer reviews on the public site: the query for the reviews shown, the card each one renders
 to (a five-slot star string and an initial-letter avatar) and the record a submission writes.
 */
module Reviews {
  import opened Common
  import opened JsText
  import opened Query

  /** A `reviews` document. `rating` is `parseInt` of the rating field (`None` for `NaN`). */
  datatype Review = Review(
    name: string,
    rating: Option<int>,
    text: string,
    approved: Option<bool>,
    createdAt: Option<Time>)

  const FullStar: char := '\U{2605}'
  const EmptyStar: char := '\U{2606}'
  const StarSlots: nat := 5

  /** Most reviews shown at once. */
  const DisplayLimit: nat := 6

  /** `'★'.repeat(rating) + '☆'.repeat(5 - rating)` for a rating the repeats accept. */
  function Stars(rating: int): (r: string)
    requires 0 <= rating <= StarSlots
    ensures |r| == StarSlots
    ensures forall i :: 0 <= i < |r| ==> (r[i] == FullStar <==> i < rating)
    ensures forall i :: 0 <= i < |r| ==> r[i] == FullStar || r[i] == EmptyStar
    ensures forall i, j :: 0 <= i < j < |r| && r[i] == EmptyStar ==> r[j] == EmptyStar
  {
    Repeat(FullStar, rating) + Repeat(EmptyStar, StarSlots - rating)
  }

  /** The star string for a stored rating: `NaN` repeats nothing, and a count below 0 or above 5
      makes one of the repeats throw (`None`). */
  function StarsOf(rating: Option<int>): (r: Option<string>)
    ensures r.None? <==> rating.Some? && !(0 <= rating.value <= StarSlots)
    ensures rating.None? ==> r == Some("")
    ensures r.Some? && rating.Some? ==> |r.value| == StarSlots
    ensures rating.Some? && 0 <= rating.value <= StarSlots ==> r == Some(Stars(rating.value))
  {
    match rating
    case None => Some("")
    case Some(n) => if 0 <= n <= StarSlots then Some(Stars(n)) else None
  }

  /** `name.charAt(0).toUpperCase()`. */
  function Avatar(name: string): (a: string)
    ensures |a| <= 1
    ensures |a| == 1 <==> |name| > 0
    ensures |name| > 0 && !('a' <= name[0] <= 'z') ==> a == name[..1]
    ensures |name| > 0 && 'a' <= name[0] <= 'z' ==>
      'A' <= a[0] <= 'Z' && (a[0] as int) + 32 == name[0] as int
  {
    if |name| == 0 then "" else [AsciiUpper(name[0])]
  }

  /** An avatar letter is already upper case: taking the avatar of an avatar changes nothing. */
  lemma AvatarIdempotent(name: string)
    ensures Avatar(Avatar(name)) == Avatar(name)
  {
  }

  function Approved(r: Review): bool {
    r.approved == Some(true)
  }

  function ReviewCreatedAt(r: Review): Option<int> {
    r.createdAt
  }

  /** `where('approved', '==', true).orderBy('createdAt', 'desc').limit(6)`. */
  function Displayed(docs: seq<Doc<Review>>): (r: seq<Doc<Review>>)
    ensures |r| <= DisplayLimit
    ensures SortedDesc(r, ReviewCreatedAt)
    ensures forall d :: d in r ==> d in docs && Approved(d.data)
    ensures multiset(r) <= multiset(docs)
  {
    var all := OrderByDesc(Where(docs, Approved), ReviewCreatedAt);
    var r := Limit(all, DisplayLimit);
    assert forall d :: d in r ==> d in all;
    ShownWithin(docs);
    r
  }

  /** The query result holds no review more often than the collection does. */
  lemma ShownWithin(docs: seq<Doc<Review>>)
    ensures multiset(Limit(OrderByDesc(Where(docs, Approved), ReviewCreatedAt), DisplayLimit)) <= multiset(docs)
  {
    var approved := Where(docs, Approved);
    var all := OrderByDesc(approved, ReviewCreatedAt);
    WhereCounts(docs, Approved);
    CountsWithin(approved, docs, Approved);
    OrderByDescCounts(approved, ReviewCreatedAt);
    CountsWithin(all, approved, KeyPresent(ReviewCreatedAt));
    LimitWithin(all, DisplayLimit);
  }

  /** The reviews left out are never newer than a review shown, and none is left out while
      fewer than six are shown. */
  lemma DisplayedAreNewest(docs: seq<Doc<Review>>, d: Doc<Review>)
    requires d in docs && Approved(d.data) && d.data.createdAt.Some?
    requires d !in Displayed(docs)
    ensures |Displayed(docs)| == DisplayLimit
    ensures forall e :: e in Displayed(docs) ==> d.data.createdAt.value <= e.data.createdAt.value
  {
    var all := OrderByDesc(Where(docs, Approved), ReviewCreatedAt);
    var r := Displayed(docs);
    assert d in all;
    var j :| 0 <= j < |all| && all[j] == d;
    assert r == all[..|r|];
    assert forall k :: 0 <= k < |r| ==> r[k] != d;
    assert j >= |r|;
    forall e | e in r
      ensures d.data.createdAt.value <= e.data.createdAt.value
    {
      var i :| 0 <= i < |r| && r[i] == e;
      assert all[i] == e;
    }
  }

  datatype ReviewCard = ReviewCard(stars: string, avatar: string, name: string, text: string)

  /** What the reviews grid shows: the empty-state message, the load-error message (a card that
      throws aborts the whole rendering), or one card per review. */
  datatype ReviewsView = NoReviewsYet | UnableToLoad | ReviewCards(cards: seq<ReviewCard>)

  function RenderCards(shown: seq<Doc<Review>>): (r: Option<seq<ReviewCard>>)
    ensures r.Some? <==> forall i :: 0 <= i < |shown| ==> StarsOf(shown[i].data.rating).Some?
    ensures r.Some? ==> |r.value| == |shown|
    ensures r.Some? ==> forall i :: 0 <= i < |shown| ==>
      r.value[i] == ReviewCard(StarsOf(shown[i].data.rating).value, Avatar(shown[i].data.name),
                               shown[i].data.name, shown[i].data.text)
  {
    if |shown| == 0 then Some([])
    else
      var d := shown[0].data;
      match StarsOf(d.rating)
      case None => None
      case Some(stars) =>
        match RenderCards(shown[1..])
        case None => None
        case Some(rest) => Some([ReviewCard(stars, Avatar(d.name), d.name, d.text)] + rest)
  }

  /** `loadReviews`. `queryFails` is a rejected query (a missing index, the network, a denied
      read), which lands in the same catch as a card that throws. */
  function LoadReviews(docs: seq<Doc<Review>>, queryFails: bool): (v: ReviewsView)
    ensures v.NoReviewsYet? <==> !queryFails && |Displayed(docs)| == 0
    ensures v.ReviewCards? ==> |v.cards| == |Displayed(docs)| && |v.cards| <= DisplayLimit
    ensures v.ReviewCards? ==> RenderCards(Displayed(docs)) == Some(v.cards)
    ensures v.UnableToLoad? <==>
      queryFails || exists i :: 0 <= i < |Displayed(docs)| && StarsOf(Displayed(docs)[i].data.rating).None?
  {
    var shown := Displayed(docs);
    if queryFails then UnableToLoad
    else if |shown| == 0 then NoReviewsYet
    else
      match RenderCards(shown)
      case None => UnableToLoad
      case Some(cards) => ReviewCards(cards)
  }

  /** When every stored rating can be drawn, a query that succeeds never ends in the error view:
      it shows the empty state or one card per displayed review. */
  lemma ValidRatingsLoad(docs: seq<Doc<Review>>)
    requires forall i :: 0 <= i < |docs| ==> StarsOf(docs[i].data.rating).Some?
    ensures !LoadReviews(docs, false).UnableToLoad?
    ensures |Displayed(docs)| > 0 ==> LoadReviews(docs, false).ReviewCards?
  {
    var shown := Displayed(docs);
    forall i | 0 <= i < |shown|
      ensures StarsOf(shown[i].data.rating).Some?
    {
      assert shown[i] in docs;
      var j :| 0 <= j < |docs| && docs[j] == shown[i];
    }
  }

  /** The record a submission writes: name and text trimmed, the rating as parsed, approved at
      once. `newId` is the identifier the store assigns; a failed write changes nothing. */
  function Submit(reviews: map<Id, Review>, name: string, rating: Option<int>, text: string,
                  now: Time, newId: Id, writeFails: bool): (r: map<Id, Review>)
    requires newId !in reviews
    ensures writeFails ==> r == reviews
    ensures !writeFails ==>
      && r.Keys == reviews.Keys + {newId}
      && (forall k :: k in reviews ==> r[k] == reviews[k])
      && Approved(r[newId]) && r[newId].createdAt == Some(now) && r[newId].rating == rating
      && r[newId].name == Trim(name) && NoSpaceAtEnds(r[newId].name)
      && r[newId].text == Trim(text) && NoSpaceAtEnds(r[newId].text)
  {
    if writeFails then reviews
    else reviews[newId := Review(Trim(name), rating, Trim(text), Some(true), Some(now))]
  }

  /** Resubmitting a stored review's own name and text stores them unchanged. */
  lemma SubmitNormalisesOnce(reviews: map<Id, Review>, name: string, rating: Option<int>, text: string,
                             now: Time, newId: Id, otherId: Id)
    requires newId !in reviews && otherId !in reviews && otherId != newId
    ensures var r := Submit(reviews, name, rating, text, now, newId, false);
      var again := Submit(r, r[newId].name, rating, r[newId].text, now, otherId, false);
      again[otherId] == r[newId]
  {
    TrimIdempotent(name);
    TrimIdempotent(text);
  }
}

=== FILE: scheduled_purge.dfy ===
/**
 The daily scheduled function that permanently removes products archived at least seven days
 ago: the cutoff query, then for every selected record a best-effort deletion of the objects
 behind its image URLs followed by the deletion of the record, each failure logged and skipped.
 */
module ScheduledPurge {
  import opened Common
  import opened Catalog
  import opened Cleanup
  import ObjectPaths
  import AdminProducts
  import opened Query

  /** The retention period in milliseconds: the seven days the admin countdown shows. */
  const RetentionMs: nat := AdminProducts.RetentionDays * AdminProducts.DayMs

  /** The cutoff query `deletedAt <= now - 7 days`: the boundary is inclusive and a record
      without `deletedAt` never matches. */
  predicate Due(p: Product, now: Time) {
    p.deletedAt.Some? && p.deletedAt.value as int <= now as int - RetentionMs as int
  }

  /** A result of the cutoff query: every listed document is the stored record under its id and
      is due, and every due record is listed. */
  ghost predicate IsCutoffResult(products: map<Id, Product>, now: Time, snapshot: seq<Doc<Product>>) {
    && (forall d :: d in snapshot ==> d.id in products && products[d.id] == d.data)
    && (forall d :: d in snapshot ==> Due(d.data, now))
    && (forall id :: id in products && Due(products[id], now) ==> exists d :: d in snapshot && d.id == id)
  }

  /** The object paths the sweep tries to delete, candidate by candidate, each candidate's
      images in list order; `resolve` turns an image URL into an object path. */
  function SweepTargets(snapshot: seq<Doc<Product>>, resolve: Url -> Option<Path>): seq<Path> {
    if |snapshot| == 0 then []
    else
      var last := snapshot[|snapshot| - 1];
      SweepTargets(snapshot[..|snapshot| - 1], resolve) + Targets(last.data.images, resolve)
  }

  /** The writes the sweep issues: for each candidate its object deletions, then its record
      deletion. */
  function SweepLog(snapshot: seq<Doc<Product>>, resolve: Url -> Option<Path>): seq<Effect> {
    if |snapshot| == 0 then []
    else
      var last := snapshot[|snapshot| - 1];
      SweepLog(snapshot[..|snapshot| - 1], resolve)
        + AsEffects(Targets(last.data.images, resolve)) + [DeleteRecord(last.id)]
  }

  /** The records whose deletion succeeds. */
  function Purged(snapshot: seq<Doc<Product>>, recordFaults: set<Id>): set<Id> {
    set d | d in snapshot && d.id !in recordFaults :: d.id
  }

  lemma PurgedSnoc(snapshot: seq<Doc<Product>>, d: Doc<Product>, recordFaults: set<Id>)
    ensures Purged(snapshot + [d], recordFaults)
      == Purged(snapshot, recordFaults) + (if d.id in recordFaults then {} else {d.id})
  {
    var a := Purged(snapshot + [d], recordFaults);
    var b := Purged(snapshot, recordFaults);
    forall id | id in a
      ensures id in b || (id == d.id && d.id !in recordFaults)
    {
      var e :| e in snapshot + [d] && e.id !in recordFaults && e.id == id;
      if e != d {
        assert e in snapshot;
      }
    }
  }

  /** The sweep loop over the query result `snapshot`: deleting a path in `blobFaults` fails,
      and so does deleting a record in `recordFaults`; every failure is logged and the sweep goes
      on with the next image or candidate. */
  method Sweep(s: Store, snapshot: seq<Doc<Product>>, resolve: Url -> Option<Path>, blobFaults: set<Path>, recordFaults: set<Id>)
    returns (t: Store, log: seq<Effect>)
    ensures t.products == s.products - Purged(snapshot, recordFaults)
    ensures t.blobs == s.blobs - Deleted(SweepTargets(snapshot, resolve), blobFaults)
    ensures log == SweepLog(snapshot, resolve)
  {
    t := s;
    log := [];
    var i := 0;
    while i < |snapshot|
      invariant 0 <= i <= |snapshot|
      invariant t.products == s.products - Purged(snapshot[..i], recordFaults)
      invariant t.blobs == s.blobs - Deleted(SweepTargets(snapshot[..i], resolve), blobFaults)
      invariant log == SweepLog(snapshot[..i], resolve)
    {
      var d := snapshot[i];
      assert snapshot[..i + 1] == snapshot[..i] + [d];
      var before := SweepTargets(snapshot[..i], resolve);
      var remaining, attempted := DeleteImages(t.blobs, d.data.images, resolve, blobFaults);
      DeletedAppend(before, attempted, blobFaults);
      SubtractTwice(s.blobs, Deleted(before, blobFaults), Deleted(attempted, blobFaults));
      PurgedSnoc(snapshot[..i], d, recordFaults);
      SubtractTwice(s.products, Purged(snapshot[..i], recordFaults), if d.id in recordFaults then {} else {d.id});
      log := log + AsEffects(attempted) + [DeleteRecord(d.id)];
      if d.id in recordFaults {
        t := t.(blobs := remaining);
      } else {
        t := Store(t.products - {d.id}, remaining);
      }
      i := i + 1;
    }
    assert snapshot[..i] == snapshot;
  }

  /** `purgeArchivedProducts` run at `now`: `snapshot` is what the cutoff query returns, and the
      sweep takes each image URL's object path from its pathname. */
  method PurgeArchivedProducts(s: Store, now: Time, snapshot: seq<Doc<Product>>, blobFaults: set<Path>, recordFaults: set<Id>)
    returns (t: Store, log: seq<Effect>)
    requires IsCutoffResult(s.products, now, snapshot)
    ensures forall id :: id in t.products <==> id in s.products && (!Due(s.products[id], now) || id in recordFaults)
    ensures forall id :: id in t.products ==> t.products[id] == s.products[id]
    ensures t.products == s.products - Purged(snapshot, recordFaults)
    ensures t.blobs == s.blobs - Deleted(SweepTargets(snapshot, ObjectPaths.ObjectPathOf), blobFaults)
    ensures log == SweepLog(snapshot, ObjectPaths.ObjectPathOf)
  {
    t, log := Sweep(s, snapshot, ObjectPaths.ObjectPathOf, blobFaults, recordFaults);
    SweepRemovesExactlyDue(s.products, now, snapshot, recordFaults);
  }

  /** Over a query result the sweep removes exactly the due records whose deletion succeeds, and
      leaves every other record as it was. */
  lemma SweepRemovesExactlyDue(products: map<Id, Product>, now: Time, snapshot: seq<Doc<Product>>, recordFaults: set<Id>)
    requires IsCutoffResult(products, now, snapshot)
    ensures forall id :: id in products - Purged(snapshot, recordFaults) <==>
      id in products && (!Due(products[id], now) || id in recordFaults)
  {
    forall id | id in products && Due(products[id], now) && id !in recordFaults
      ensures id in Purged(snapshot, recordFaults)
    {
      var d :| d in snapshot && d.id == id;
    }
  }

  /** Every path a candidate's images resolve to is among the sweep's targets. */
  lemma {:induction false} CandidateTargetsSwept(snapshot: seq<Doc<Product>>, k: nat, resolve: Url -> Option<Path>)
    requires k < |snapshot|
    ensures forall p :: p in Targets(snapshot[k].data.images, resolve) ==>
      p in SweepTargets(snapshot, resolve)
  {
    var n := |snapshot|;
    var pre := snapshot[..n - 1];
    var mine := Targets(snapshot[k].data.images, resolve);
    var lastTargets := Targets(snapshot[n - 1].data.images, resolve);
    assert SweepTargets(snapshot, resolve) == SweepTargets(pre, resolve) + lastTargets;
    if k < n - 1 {
      assert pre[k] == snapshot[k];
      CandidateTargetsSwept(pre, k, resolve);
      forall p | p in mine
        ensures p in SweepTargets(snapshot, resolve)
      {
        assert p in SweepTargets(pre, resolve);
      }
    } else {
      assert mine == lastTargets;
    }
  }

  /** End to end: an image the admin form uploaded for a product that is now due is deleted from
      the bucket by the sweep, unless that one deletion fails. */
  lemma UploadedImageSwept(s: Store, now: Time, snapshot: seq<Doc<Product>>, blobFaults: set<Path>,
                           id: Id, bucket: string, path: Path, token: string)
    requires IsCutoffResult(s.products, now, snapshot)
    requires id in s.products && Due(s.products[id], now)
    requires ObjectPaths.DownloadUrl(bucket, path, token) in s.products[id].images
    requires ObjectPaths.SplittableBucket(bucket)
    requires path !in blobFaults
    ensures path !in s.blobs - Deleted(SweepTargets(snapshot, ObjectPaths.ObjectPathOf), blobFaults)
  {
    var d :| d in snapshot && d.id == id;
    var k :| 0 <= k < |snapshot| && snapshot[k] == d;
    ObjectPaths.ObjectPathOfDownloadUrl(bucket, path, token);
    TargetsExactly(d.data.images, ObjectPaths.ObjectPathOf);
    CandidateTargetsSwept(snapshot, k, ObjectPaths.ObjectPathOf);
  }

  /** The archived row's countdown reads 0 exactly when the sweep would select the product. */
  lemma DueIffCountdownZero(p: Product, now: Time)
    ensures Due(p, now) <==> AdminProducts.DaysLeft(p.deletedAt, now) == Some(0)
  {
    if p.deletedAt.Some? {
      AdminProducts.DaysLeftZeroIff(p.deletedAt.value, now);
    }
  }

  function ArchivedAt(at: Time): Product {
    Product("", "", 0, None, [], Some(false), None, None, Some(at))
  }

  /** Products archived 3, 6, 7 and 10 days ago: only the last two are selected. */
  lemma CutoffExample(now: Time)
    requires now >= 10 * AdminProducts.DayMs
    ensures var day := AdminProducts.DayMs;
      && !Due(ArchivedAt(now - 3 * day), now)
      && !Due(ArchivedAt(now - 6 * day), now)
      && Due(ArchivedAt(now - 7 * day), now)
      && Due(ArchivedAt(now - 10 * day), now)
  {
  }
}

=== FILE: uri_component.dfy ===
/**
 `encodeURIComponent` and `decodeURIComponent` (sections 19.2.6.4 and 19.2.6.5 of ECMA-262),
 which implement the percent-encoding of section 2.1 of RFC 3986 over UTF-8 octets.
 */
module UriComponent {
  import opened Common
  import opened Utf8

  /** The characters `encodeURIComponent` leaves as they are. */
  predicate Unreserved(c: char) {
    || ('A' <= c <= 'Z') || ('a' <= c <= 'z') || ('0' <= c <= '9')
    || c == '-' || c == '_' || c == '.' || c == '!' || c == '~' || c == '*' || c == '\'' || c == '(' || c == ')'
  }

  predicate IsHex(c: char) {
    ('0' <= c <= '9') || ('A' <= c <= 'F') || ('a' <= c <= 'f')
  }

  function HexValue(c: char): (d: nat)
    requires IsHex(c)
    ensures d < 16
  {
    if '0' <= c <= '9' then (c as int) - ('0' as int)
    else if 'A' <= c <= 'F' then (c as int) - ('A' as int) + 10
    else (c as int) - ('a' as int) + 10
  }

  function HexDigit(d: nat): (c: char)
    requires d < 16
    ensures IsHex(c) && HexValue(c) == d
  {
    "0123456789ABCDEF"[d]
  }

  /** `%XY` with upper-case hexadecimal digits. */
  function PercentByte(b: byte): (r: string)
    ensures |r| == 3 && r[0] == '%'
  {
    ['%', HexDigit(b / 16), HexDigit(b % 16)]
  }

  function PercentBytes(bs: seq<byte>): (r: string)
    ensures |r| == 3 * |bs|
  {
    if |bs| == 0 then "" else PercentByte(bs[0]) + PercentBytes(bs[1..])
  }

  function EncodeChar(c: char): string {
    if Unreserved(c) then [c] else PercentBytes(EncodeScalar(c))
  }

  /** `encodeURIComponent(s)`. A Dafny `char` is a scalar value, so the lone-surrogate error
      of the JavaScript function cannot arise. */
  function Encode(s: string): (r: string)
  {
    if |s| == 0 then "" else EncodeChar(s[0]) + Encode(s[1..])
  }

  /** The octet spelled by a leading `%XY`, if `s` starts with one. */
  function EscapedByte(s: string): (r: Option<byte>)
    ensures r.Some? ==> |s| >= 3
  {
    if |s| >= 3 && s[0] == '%' && IsHex(s[1]) && IsHex(s[2]) then Some(HexValue(s[1]) * 16 + HexValue(s[2]))
    else None
  }

  /** Reads `count` escaped continuation octets from the front of `s`. */
  function Continuations(s: string, count: nat): (r: Option<seq<byte>>)
    ensures r.Some? ==> |r.value| == count && |s| >= 3 * count
    ensures r.Some? ==> forall i :: 0 <= i < count ==> IsContinuation(r.value[i])
  {
    if count == 0 then Some([])
    else match EscapedByte(s)
      case None => None
      case Some(b) =>
        if !IsContinuation(b) then None
        else match Continuations(s[3..], count - 1)
          case None => None
          case Some(rest) => Some([b] + rest)
  }

  function Prepend(c: char, r: Option<string>): Option<string> {
    match r
    case None => None
    case Some(t) => Some([c] + t)
  }

  /** `decodeURIComponent(s)`; `None` stands for the `URIError` it throws on a truncated or
      non-hexadecimal escape, on a stray continuation or invalid lead octet, and on an octet
      group that is not well-formed UTF-8. */
  function Decode(s: string): Option<string>
    decreases |s|
  {
    if |s| == 0 then Some("")
    else if s[0] != '%' then Prepend(s[0], Decode(s[1..]))
    else match EscapedByte(s)
      case None => None
      case Some(b) =>
        var n := LeadLength(b);
        if n == 0 then Prepend(b as char, Decode(s[3..]))
        else if n == 1 || n > 4 then None
        else match Continuations(s[3..], n - 1)
          case None => None
          case Some(tail) =>
            match DecodeGroup([b] + tail)
            case None => None
            case Some(c) => Prepend(c, Decode(s[3 * n..]))
  }

  /** Text with no `%` in it decodes to itself. */
  lemma {:induction false} DecodeWithoutPercent(s: string)
    requires forall i :: 0 <= i < |s| ==> s[i] != '%'
    ensures Decode(s) == Some(s)
  {
    if |s| > 0 {
      DecodeWithoutPercent(s[1..]);
      assert [s[0]] + s[1..] == s;
    }
  }

  lemma EscapedPercentByte(b: byte, t: string)
    ensures EscapedByte(PercentByte(b) + t) == Some(b)
  {
    var s := PercentByte(b) + t;
    assert s[1] == HexDigit(b / 16) && s[2] == HexDigit(b % 16);
  }

  lemma {:induction false} ContinuationsOfPercentBytes(bs: seq<byte>, t: string)
    requires forall i :: 0 <= i < |bs| ==> IsContinuation(bs[i])
    ensures Continuations(PercentBytes(bs) + t, |bs|) == Some(bs)
  {
    if |bs| > 0 {
      var s := PercentBytes(bs) + t;
      assert s == PercentByte(bs[0]) + (PercentBytes(bs[1..]) + t);
      EscapedPercentByte(bs[0], PercentBytes(bs[1..]) + t);
      assert s[3..] == PercentBytes(bs[1..]) + t;
      ContinuationsOfPercentBytes(bs[1..], t);
      assert [bs[0]] + bs[1..] == bs;
    }
  }

  /** Decoding the encoding of one character, followed by anything, yields that character first. */
  lemma DecodeEncodedChar(c: char, t: string)
    ensures Decode(EncodeChar(c) + t) == Prepend(c, Decode(t))
  {
    if Unreserved(c) {
      var s := EncodeChar(c) + t;
      assert s[0] == c && s[1..] == t;
    } else if (c as int) < 0x80 {
      DecodeEscapedAscii(c, t);
    } else {
      DecodeEscapedGroup(c, t);
    }
  }

  lemma DecodeEscapedAscii(c: char, t: string)
    requires (c as int) < 0x80
    ensures Decode(PercentBytes(EncodeScalar(c)) + t) == Prepend(c, Decode(t))
  {
    var bs := EncodeScalar(c);
    var s := PercentBytes(bs) + t;
    assert PercentBytes(bs) == PercentByte(bs[0]);
    EscapedPercentByte(bs[0], t);
    assert s[3..] == t;
    assert (bs[0] as char) == c;
  }

  lemma DecodeEscapedGroup(c: char, t: string)
    requires (c as int) >= 0x80
    ensures Decode(PercentBytes(EncodeScalar(c)) + t) == Prepend(c, Decode(t))
  {
    var bs := EncodeScalar(c);
    var n := |bs|;
    var s := PercentBytes(bs) + t;
    assert s == PercentByte(bs[0]) + (PercentBytes(bs[1..]) + t);
    EscapedPercentByte(bs[0], PercentBytes(bs[1..]) + t);
    EncodeScalarDecodes(c);
    assert s[3..] == PercentBytes(bs[1..]) + t;
    ContinuationsOfPercentBytes(bs[1..], t);
    assert [bs[0]] + bs[1..] == bs;
    assert s[3 * n..] == t;
  }

  /** Round trip: `decodeURIComponent(encodeURIComponent(s)) === s` for every string. */
  lemma {:induction false} DecodeEncode(s: string)
    ensures Decode(Encode(s)) == Some(s)
  {
    if |s| > 0 {
      DecodeEncodedChar(s[0], Encode(s[1..]));
      DecodeEncode(s[1..]);
      assert [s[0]] + s[1..] == s;
    }
  }

  /** The encoding consists of unreserved characters, `%` and hexadecimal digits only; in
      particular it contains no `/`. */
  lemma {:induction false} EncodeAlphabet(s: string)
    ensures forall i :: 0 <= i < |Encode(s)| ==> Unreserved(Encode(s)[i]) || Encode(s)[i] == '%'
    ensures forall i :: 0 <= i < |Encode(s)| ==> Encode(s)[i] != '/'
  {
    if |s| > 0 {
      EncodeAlphabet(s[1..]);
      PercentBytesAlphabet(EncodeScalar(s[0]));
    }
  }

  lemma {:induction false} PercentBytesAlphabet(bs: seq<byte>)
    ensures forall i :: 0 <= i < |PercentBytes(bs)| ==> Unreserved(PercentBytes(bs)[i]) || PercentBytes(bs)[i] == '%'
  {
    if |bs| > 0 {
      PercentBytesAlphabet(bs[1..]);
    }
  }
}

=== FILE: utf8.dfy ===
/**
 UTF-8 encoding of a single Unicode scalar value, and the validity check that `decodeURIComponent`
 applies to a percent-escaped octet group (section 19.2.6.5 of ECMA-262, following the
 well-formedness table 3-7 of the Unicode standard: no overlong forms, no surrogates, nothing
 above U+10FFFF).
 */
module Utf8 {
  import opened Common

  type byte = x: int | 0 <= x < 256

  /** Number of leading one bits of an octet, with every count above 4 reported as 5. */
  function LeadLength(b: byte): (n: nat)
    ensures n <= 5
  {
    if b < 0x80 then 0
    else if b < 0xC0 then 1
    else if b < 0xE0 then 2
    else if b < 0xF0 then 3
    else if b < 0xF8 then 4
    else 5
  }

  predicate IsContinuation(b: byte) {
    0x80 <= b < 0xC0
  }

  /** The shape of a multi-octet group: a lead octet announcing `|octets|` octets, then continuations. */
  predicate MultiByteShape(octets: seq<byte>) {
    && 2 <= |octets| <= 4
    && LeadLength(octets[0]) == |octets|
    && forall i :: 1 <= i < |octets| ==> IsContinuation(octets[i])
  }

  /** The code point a multi-octet group spells out, before any validity check. */
  function GroupValue(octets: seq<byte>): int
    requires MultiByteShape(octets)
  {
    if |octets| == 2 then
      (octets[0] as int - 0xC0) * 64 + (octets[1] as int - 0x80)
    else if |octets| == 3 then
      (octets[0] as int - 0xE0) * 4096 + (octets[1] as int - 0x80) * 64 + (octets[2] as int - 0x80)
    else
      (octets[0] as int - 0xF0) * 262144 + (octets[1] as int - 0x80) * 4096
        + (octets[2] as int - 0x80) * 64 + (octets[3] as int - 0x80)
  }

  /** Smallest code point that needs `n` octets; anything smaller is an overlong form. */
  function MinValue(n: nat): int {
    if n == 2 then 0x80 else if n == 3 then 0x800 else 0x1_0000
  }

  predicate IsScalarValue(v: int) {
    (0 <= v < 0xD800) || (0xE000 <= v < 0x11_0000)
  }

  /** Decodes a multi-octet group, rejecting overlong forms, surrogates and values past U+10FFFF. */
  function DecodeGroup(octets: seq<byte>): (r: Option<char>)
    requires MultiByteShape(octets)
    ensures r.Some? <==> MinValue(|octets|) <= GroupValue(octets) && IsScalarValue(GroupValue(octets))
    ensures r.Some? ==> r.value as int == GroupValue(octets) && r.value as int >= 0x80
  {
    var v := GroupValue(octets);
    if MinValue(|octets|) <= v && IsScalarValue(v) then Some(v as char) else None
  }

  /** The UTF-8 octets of one scalar value. */
  function EncodeScalar(c: char): (bs: seq<byte>)
    ensures 1 <= |bs| <= 4
    ensures |bs| == 1 <==> (c as int) < 0x80
    ensures |bs| == 1 ==> bs[0] == c as int
  {
    var v := c as int;
    if v < 0x80 then [v]
    else if v < 0x800 then [0xC0 + v / 64, 0x80 + v % 64]
    else if v < 0x1_0000 then [0xE0 + v / 4096, 0x80 + (v / 64) % 64, 0x80 + v % 64]
    else [0xF0 + v / 262144, 0x80 + (v / 4096) % 64, 0x80 + (v / 64) % 64, 0x80 + v % 64]
  }

  /** `v` split into its quotient and remainder by 64. */
  lemma Split64(v: nat) returns (q: nat, r: nat)
    ensures q == v / 64 && r == v % 64
    ensures v == q * 64 + r && r < 64
  {
    q, r := v / 64, v % 64;
  }

  lemma QuotientOfSplit(v: nat, d: nat, q: nat, r: nat)
    requires d > 0 && v == q * d + r && r < d
    ensures v / d == q && v % d == r
  {
    var q' := v / d;
    if q' < q {
      MulMonoNat(q' + 1, q, d);
    } else if q < q' {
      MulMonoNat(q + 1, q', d);
    }
  }

  lemma MulMonoNat(a: nat, b: nat, d: nat)
    requires a <= b
    ensures a * d <= b * d
  {
  }

  lemma EncodeTwoDecodes(c: char)
    requires 0x80 <= c as int < 0x800
    ensures MultiByteShape(EncodeScalar(c))
    ensures GroupValue(EncodeScalar(c)) == c as int
  {
    var v := c as int;
    var q, r := Split64(v);
    assert EncodeScalar(c) == [0xC0 + q, 0x80 + r];
  }

  lemma EncodeThreeDecodes(c: char)
    requires 0x800 <= c as int < 0x1_0000
    ensures MultiByteShape(EncodeScalar(c))
    ensures GroupValue(EncodeScalar(c)) == c as int
  {
    var v := c as int;
    var q1, r0 := Split64(v);
    var q2, r1 := Split64(q1);
    QuotientOfSplit(v, 4096, q2, r1 * 64 + r0);
    assert EncodeScalar(c) == [0xE0 + q2, 0x80 + r1, 0x80 + r0];
  }

  lemma EncodeFourDecodes(c: char)
    requires 0x1_0000 <= c as int
    ensures MultiByteShape(EncodeScalar(c))
    ensures GroupValue(EncodeScalar(c)) == c as int
  {
    var v := c as int;
    var q1, r0 := Split64(v);
    var q2, r1 := Split64(q1);
    var q3, r2 := Split64(q2);
    QuotientOfSplit(v, 4096, q2, r1 * 64 + r0);
    QuotientOfSplit(v, 262144, q3, r2 * 4096 + r1 * 64 + r0);
    assert EncodeScalar(c) == [0xF0 + q3, 0x80 + r2, 0x80 + r1, 0x80 + r0];
  }

  /** Every scalar value of two or more octets is encoded as a well-formed group that decodes to it. */
  lemma EncodeScalarDecodes(c: char)
    requires (c as int) >= 0x80
    ensures MultiByteShape(EncodeScalar(c))
    ensures DecodeGroup(EncodeScalar(c)) == Some(c)
  {
    if c as int < 0x800 {
      EncodeTwoDecodes(c);
    } else if c as int < 0x1_0000 {
      EncodeThreeDecodes(c);
    } else {
      EncodeFourDecodes(c);
    }
  }
}
